=== FILE: README.md ===
# Chitradrishya gallery core in Dafny

Chitradrishya is a single-page photo-gallery web app. People ("folders",
keyed by a slug) have photos, and visitors leave ratings and comments.
The core this project models is the logic under the page, with the
Streamlit widgets, SQLite and the imaging library taken away:

- **Slug check** (`Slug`). `validate_folder_name` is a Python `re.match`
  with `^[a-z0-9_]{3,20}$`. It is modelled as the matcher runs it: a
  greedy repetition, then backtracking until `$` matches. It is then
  characterised declaratively. Python's `$` also matches just before one
  final newline, so `"abc\n"` passes. This is modelled as written.
- **Upload check** (`Upload`). `validate_file` checks size (5 MiB), then
  type. The type is the reported MIME type or, when there is none, the
  lower-cased extension as POSIX `os.path.splitext` computes it. Last
  comes the imaging library's integrity check, which is a boolean
  parameter here.
- **Store** (`Database`, `ImageHistory`, `SurveyReport`). The four tables
  become sequences of rows in an immutable `Store`. Every `DatabaseManager`
  method is a pure transition:
  - `init_db` seeding, `add_folder`, `load_folders`, `update_folder_name`;
  - `load_images_to_db`, `get_images`, `swap_image`,
    `update_download_permission`, `delete_image`;
  - `save_image_history`, `get_image_id`, `undo_image_edit`;
  - `save_survey_data`, `delete_survey_entry`, `load_survey_data`.

  `Valid` is the invariant every operation keeps:
  - slugs are unique and pass the slug check;
  - images sit in existing folders under ids the AUTOINCREMENT counter
    handed out;
  - no two images share an id or a (folder, name) pair.

  The zoom view's "Save Edits" button issues its own UPDATE after saving a
  history snapshot. It is modelled as `ImageHistory.ZoomSaveEdits`, and
  undo is proved to reverse it.
- **Upload editor** (`UploadEditor`). The "Edit & Upload" session keeps
  current and original bytes per file, and an undo stack per file NAME.
  Save pushes, undo pops, reset restores the original and clears the
  stack.
- **Zoom navigation** (`ZoomView`). This is the open folder and the shown
  index over the folder's `n` images:
  - an index past the end falls back to 0;
  - "Previous" and "Next" are guarded at the ends;
  - deleting moves the index to `max(0, idx - 1)` and closes the view when
    the folder is empty.

Representation choices:
- Image bytes are `seq<bv8>`. Only their emptiness is ever inspected,
  because Python treats `b""` as false.
- Timestamps are ISO strings compared character by character, as SQLite's
  default BINARY collation compares TEXT.
- Clock readings, UUIDs, generated person names, and the results of
  cropping or rotating are parameters supplied by the caller.
- SQLite's AUTOINCREMENT is a counter `nextImageId` that starts at 1 and
  never goes back.
- The schema declares `FOREIGN KEY(folder) REFERENCES folders(folder)` on
  the surveys table (chitradrishya.py:140) and `FOREIGN KEY(image_id)
  REFERENCES images(id)` on the history table (chitradrishya.py:150), but
  SQLite does not enforce foreign keys unless
  `PRAGMA foreign_keys` is switched on, which the code never does. So
  `save_survey_data` and `save_image_history` accept any folder and image
  id, and the model does the same.
- `ORDER BY timestamp DESC LIMIT 1` leaves ties to SQLite. The model picks
  the earliest of the tied rows. `UndoImageEdit`'s own contract assumes
  nothing about timestamps. The edit-then-undo lemmas assume that each new
  snapshot's timestamp is strictly later than every earlier snapshot of
  that image. A clock that is set back breaks that assumption.

## Model

| member | source | states |
|---|---|---|
| Slug.ValidateFolderNameSpec | chitradrishya.py:45-48 | The slug check accepts exactly a string of 3 to 20 characters from `[a-z0-9_]`, or such a string followed by a single newline. |
| Slug.TrailingNewline | chitradrishya.py:45-48 | A well-formed slug passes with and without one trailing newline; two trailing newlines never pass. |
| Slug.ForeignCharRejected | chitradrishya.py:45-48 | Any character outside `[a-z0-9_]` other than a final newline makes the slug invalid. |
| Slug.Run | chitradrishya.py:47 | The greedy `{3,20}` repetition consumes at most 20 class characters and stops at the cap, the end, or the first non-class character. |
| Upload.ValidateFile | chitradrishya.py:54-74 | A file passes exactly when it has at most 5 MiB, its type is one of the five accepted values, and the integrity check succeeds; a larger file never passes. |
| Upload.Extension | chitradrishya.py:61 | The extension is empty or a suffix of the name that starts with its only dot and holds no path separator. |
| Upload.ExtensionSpec | chitradrishya.py:61 | As POSIX `os.path.splitext` finds it, the extension is non-empty exactly when the last dot of the last path component has a non-dot character before it in that component, and it is then the rest of the name from that dot, so "a..png" has ".png". |
| Upload.FileType | chitradrishya.py:61 | A present, non-empty MIME type is the type checked. Otherwise the type is the extension lower-cased character by character: empty exactly when there is no extension, and else starting with its dot. |
| Upload.ExtensionDecidesWithoutMime | chitradrishya.py:61-65 | Without a MIME type, a name `stem.jpg`, `stem.jpeg` or `stem.png` in any letter case passes exactly when the size and integrity checks do. This covers only stems that do not end in `.` or `/`; other names, such as `a..png`, are covered by Upload.ExtensionSpec. |
| Upload.HiddenFileRejected | chitradrishya.py:61-65 | Without a MIME type, a hidden name such as `.png` has no extension and is refused. |
| Upload.MimeOverridesName | chitradrishya.py:61-65 | A non-empty MIME type decides the type check alone: renaming the file never changes the verdict. |
| Database.AddFolder | chitradrishya.py:213-236 | Success exactly when the slug is valid and not yet present; on failure the store is unchanged; on success exactly one folder row is appended. |
| Database.AddFolderPreservesValid | chitradrishya.py:213-236 | Adding a folder keeps slugs unique and valid, and every other part of the invariant. |
| Database.AddFolderTwice | chitradrishya.py:222-232 | Once a slug has been added, adding it again fails, whatever the other fields are. |
| Database.Seed | chitradrishya.py:163-171 | The seeding loop changes only the folders table and keeps the old rows in front. It appends at most one row per default, and every appended row has a valid slug that was not there before. |
| Database.InitDb | chitradrishya.py:154-171 | `init_db` on an existing store changes only the folders table and keeps the old rows in front. It appends at most seven rows, each with a valid slug that was not there before. |
| Database.SeedSlugs | chitradrishya.py:163-171 | Seeding adds to the slug set exactly the defaults whose slug passes the check. |
| Database.SeedNoop | chitradrishya.py:163-171 | Seeding inserts nothing when every valid default slug is already present. |
| Database.SeedPreservesValid | chitradrishya.py:163-171 | Seeding keeps the store invariant. |
| Database.SeedAllFresh | chitradrishya.py:163-171 | On a store holding none of the default slugs, seeding appends one row per valid default, in order. |
| Database.InitDbIdempotent | chitradrishya.py:154-171 | `init_db` adds exactly the seven default slugs, and running it again changes nothing, whatever names are generated. |
| Database.InitDbOnEmpty | chitradrishya.py:154-171 | On an empty store `init_db` creates the seven defaults in order, with their fixed ages, professions and categories. |
| Database.DefaultSlugsAreValid | chitradrishya.py:154-164 | All seven default slugs pass the slug check and are distinct, so the slugs seeding may add are exactly the seven defaults. |
| Database.LoadFolders | chitradrishya.py:182-191 | The listed folders are exactly those whose name, slug, profession or category contains the query. |
| Database.LoadFoldersEmptyQuery | chitradrishya.py:182-191 | The default empty query lists every folder, in table order. |
| Database.UpdateFolderName | chitradrishya.py:196-204 | Only the person name of the folder with that slug changes; every other row, field and table is unchanged. |
| Database.UpdateFolderNamePreservesValid | chitradrishya.py:196-204 | Renaming keeps the store invariant. |
| Database.UpdateFolderNameLastWins | chitradrishya.py:196-204 | Of two renames of the same folder only the later one is visible. |
| Database.UpdateFolderNameUndo | chitradrishya.py:196-204 | Renaming a folder and renaming it back restores the store. |
| Database.InsertImages | chitradrishya.py:249-255 | The new rows are appended after the old ones, in the target folder with the given download flag, under consecutive new ids. |
| Database.LoadImagesToDb | chitradrishya.py:241-257 | A folder that does not exist gets nothing and the store is unchanged. Otherwise only the images table and its counter change, at most one row is appended per blob, and each new row is in that folder, has the given download flag and holds one of the given blobs. |
| Database.InsertImagesFromBlobs | chitradrishya.py:249-255 | Every row the insertion loop appends holds one of the blobs it was given. |
| Database.LoadImagesFresh | chitradrishya.py:241-257 | With fresh UUIDs, every blob becomes exactly one new row, in input order, named after its UUID, with the chosen flag and consecutive ids. |
| Database.LoadImagesPreservesValid | chitradrishya.py:241-257 | Uploading keeps the store invariant, so images only go into existing folders. |
| Database.InsertOneKeepsFree | chitradrishya.py:250-255 | Inserting one file leaves every other file name of the folder free. |
| Database.ImageFileNameInjective | chitradrishya.py:250-251 | Different UUIDs give different stored file names. |
| Database.GetImages | chitradrishya.py:413-438 | The result holds exactly the images of that folder. |
| Database.SwapImage | chitradrishya.py:268-278 | Only the bytes of the image with that folder and name change; every other row, field and table is unchanged. |
| Database.SwapImagePreservesValid | chitradrishya.py:268-278 | Swapping keeps the store invariant. |
| Database.SwapImageUndo | chitradrishya.py:268-278 | Swapping an image's bytes and then swapping the old bytes back restores the store. |
| Database.SwapImageSame | chitradrishya.py:268-278 | Writing an image's own bytes back changes nothing. |
| Database.UpdateDownloadPermission | chitradrishya.py:345-353 | Only the download flag of the image with that folder and name changes. |
| Database.UpdateDownloadPermissionPreservesValid | chitradrishya.py:345-353 | The permission update keeps the store invariant. |
| Database.UpdateDownloadPermissionLastWins | chitradrishya.py:345-353 | Of two permission updates of the same image only the later one counts. |
| Database.DeleteImage | chitradrishya.py:358-365 | Exactly the rows with that folder and name disappear; each other row keeps its number of occurrences, and other tables are unchanged. |
| Database.DeleteImagePreservesValid | chitradrishya.py:358-365 | Deleting keeps the store invariant. |
| Database.UploadThenDelete | chitradrishya.py:358-365 | Uploading one fresh file and deleting it restores every table; only the id counter remembers the upload. |
| Database.SaveSurveyData | chitradrishya.py:388-396 | Exactly one survey row is appended, and nothing else changes. |
| Database.DeleteSurveyEntry | chitradrishya.py:401-408 | Exactly the surveys of that folder with that timestamp disappear; all other rows keep their number of occurrences. |
| Database.SaveThenDeleteSurvey | chitradrishya.py:388-408 | Deleting a survey just submitted under a new timestamp restores the store. |
| Database.SurveysPreserveValid | chitradrishya.py:388-408 | Both survey operations keep the store invariant. |
| ImageHistory.GetImageId | chitradrishya.py:303-310 | There is an id exactly when an image with that folder and name exists, and the id is that row's. |
| ImageHistory.GetImageIdOfRow | chitradrishya.py:303-310 | In a valid store, the id found for an image's folder and name is that image's own id, and it is non-zero. |
| ImageHistory.SaveImageHistory | chitradrishya.py:287-296 | One snapshot row is appended with the given id, folder, bytes and clock reading. |
| ImageHistory.Newest | chitradrishya.py:323-325 | The newest snapshot of an image exists exactly when the image has history, and it is one of that image's snapshots. |
| ImageHistory.NewestIsLatest | chitradrishya.py:323-325 | The chosen snapshot has the greatest timestamp of its image's snapshots, and is strictly later than every earlier row of that image. |
| ImageHistory.DropSnapshots | chitradrishya.py:330-331 | Exactly the snapshots with that image id and timestamp disappear. |
| ImageHistory.UndoImageEdit | chitradrishya.py:315-336 | Fails and changes nothing without a usable id or without history. Otherwise it succeeds, sets the image's bytes to the newest snapshot and deletes that image's snapshots with that timestamp. Folders and surveys are never touched. |
| ImageHistory.UndoImageEditPreservesValid | chitradrishya.py:315-336 | Undo keeps the store invariant. |
| ImageHistory.ZoomSaveEdits | chitradrishya.py:1127-1152 | A snapshot of the shown bytes is saved when the image id is usable; the image's bytes are replaced only when the edit produced non-empty bytes. |
| ImageHistory.ZoomSaveEditsPreservesValid | chitradrishya.py:1127-1152 | Saving an edit keeps the store invariant. |
| ImageHistory.NewestIsLastPushed | chitradrishya.py:323-325 | A snapshot later than all earlier ones of its image becomes that image's newest. |
| ImageHistory.DropLastPushed | chitradrishya.py:330-331 | Deleting the just-pushed snapshot by id and timestamp restores the history. |
| ImageHistory.ZoomEditKeepsRow | chitradrishya.py:1127-1152 | After an edit the image keeps its id, and exactly one snapshot of the old bytes is appended. |
| ImageHistory.EditThenUndo | chitradrishya.py:1127-1159 | Undo right after a zoom-view edit succeeds and restores the store exactly, when the edit's clock reading is later than the image's earlier snapshots. |
| ImageHistory.TwoEditsUndoneInOrder | chitradrishya.py:1127-1159 | Two edits at increasing times are undone newest first: the first undo returns the store after the first edit, the second the original store. |
| SurveyReport.LoadSurveyData | chitradrishya.py:370-383 | Each folder with surveys gets a key, listed once, and the keys are ordered by the position of their folder's first row (a Python dict keeps first-insertion order). Its list holds its rows in table order without the folder. The lists together hold exactly as many entries as there are rows. |
| SurveyReport.GroupedStep | chitradrishya.py:377-381 | One turn of the loop keeps the grouping invariant for one more row. |
| SurveyReport.AddRowsEnd | chitradrishya.py:376-383 | After the loop has read every row, the lists it built are the whole table's: a key for each folder with surveys, each folder's rows in table order, keys listed once in order of first appearance, and every row counted once. |
| SurveyReport.SavedSurveyListedLast | chitradrishya.py:370-396 | A survey just saved appears last in its folder's list, and no other folder's list changes. |
| UploadEditor.OpenPreviewsAsWritten | chitradrishya.py:807-815 | As written, each preview shows the uploaded bytes, its original is empty, and every file name starts with an empty stack. |
| UploadEditor.ResetAfterOpenAsWritten | chitradrishya.py:807-809 | As written, reset right after opening shows empty bytes, which differ from any non-empty upload. |
| UploadEditor.ResetAsWrittenLosesBytes | chitradrishya.py:807-809 | Concretely, a one-byte upload comes back empty after reset. |
| UploadEditor.OpenPreviews | chitradrishya.py:807-815 | Corrected opening: each preview's current and original bytes are the uploaded content, and every file name starts with an empty stack. |
| UploadEditor.ResetRestoresUpload | chitradrishya.py:1026-1032 | With the corrected opening, reset after any run of edits shows the uploaded bytes and leaves nothing to undo. |
| UploadEditor.Save | chitradrishya.py:998-1014 | An edit that produced bytes pushes the shown bytes on the file name's stack and shows the edit; otherwise nothing changes; other previews are untouched. |
| UploadEditor.Undo | chitradrishya.py:1017-1024 | With a non-empty stack the top becomes the shown bytes and is popped; with an empty stack nothing changes; other previews are untouched. |
| UploadEditor.Reset | chitradrishya.py:1026-1032 | The original is shown and the file name's stack is emptied; other previews are untouched. |
| UploadEditor.SaveThenUndo | chitradrishya.py:1009-1024 | Undo right after a productive save restores the whole session. |
| UploadEditor.UndoEmptyStack | chitradrishya.py:1017-1024 | Undo with an empty stack changes nothing. |
| UploadEditor.SaveManyThenUndoMany | chitradrishya.py:1009-1024 | Undoing as many times as edits were saved returns to the starting session. |
| UploadEditor.ResetAfterSave | chitradrishya.py:1009-1032 | Reset after a save gives the same session as reset alone. |
| UploadEditor.ResetAfterUndo | chitradrishya.py:1017-1032 | Reset after an undo gives the same session as reset alone. |
| UploadEditor.ResetIdempotent | chitradrishya.py:1026-1032 | Resetting twice is the same as resetting once. |
| UploadEditor.UndoAfterReset | chitradrishya.py:1017-1032 | After a reset there is nothing to undo. |
| UploadEditor.SharedStackBetweenNamesakes | chitradrishya.py:1009-1024 | Two previews with the same file name share one stack: undo on the second shows the bytes the first had before its edit. |
| UploadEditor.OriginalsKept | chitradrishya.py:1009-1014 | Saving edits never changes a preview's original bytes. |
| UploadEditor.SaveAllPhotos | chitradrishya.py:1047-1050 | A missing folder gets nothing. Otherwise only the images change: at most one row is appended per preview, and each new row is in the chosen folder, has the chosen flag and holds bytes some preview shows. |
| UploadEditor.SaveAllPhotosStoresShown | chitradrishya.py:1047-1050 | For any session, edited or not, saving with fresh UUIDs into an existing folder appends exactly one row per preview, in order, holding that preview's shown bytes under the next ids, and keeps the earlier rows. |
| UploadEditor.UntouchedUpload | chitradrishya.py:1047-1050 | Saving all photos of an unedited session stores exactly the uploaded contents, in order. |
| ZoomView.Move | chitradrishya.py:1073-1175 | From shown index k of n: Previous steps back by one unless at 0, and Next steps forward by one exactly when k+1 < n, staying on the list. Delete closes the view when nothing is left; otherwise it stays on the folder and moves to index max(0, k-1), which lies within the shorter list. View opens the chosen photo, and Back to Gallery closes. |
| ZoomView.Step | chitradrishya.py:1061-1081 | With the view open on an empty folder no button is reachable, not even a gallery View button, because the photo lookup fails first. Outside the zoom only View changes anything. Previous and Next on an open view stay on the same folder, within the list. |
| ZoomView.ShownIndex | chitradrishya.py:1064-1068 | The shown index is the stored one when in range, 0 when past the end, and there is none (the lookup fails) for an empty folder. |
| ZoomView.SettledShownAsStored | chitradrishya.py:1064-1068 | An index within the list is shown as stored. |
| ZoomView.NavigationStaysInRange | chitradrishya.py:1074-1081 | "Previous" and "Next" on a non-empty folder keep the folder open and the index within the list. |
| ZoomView.GuardsAtTheEnds | chitradrishya.py:1074-1081 | At the first photo "Previous" does nothing, and at the last photo "Next" does nothing. |
| ZoomView.PreviousNextInverse | chitradrishya.py:1074-1081 | Away from the ends, "Previous" then "Next", or "Next" then "Previous", returns to the same view. |
| ZoomView.DeleteStaysInRange | chitradrishya.py:1161-1168 | After deleting one of `n` photos the view closes exactly when none is left; otherwise it stays on the folder at index max(0, k-1) of the shown index k, within the shorter list. |
| ZoomView.BackCloses | chitradrishya.py:1171-1173 | "Back to Gallery" closes the view with index 0. |
| ZoomView.DeleteShownRemovesOne | chitradrishya.py:1161-1163 | Deleting the shown photo removes exactly one image of its folder when (folder, name) pairs are unique. |
| ZoomView.DeleteShownSettles | chitradrishya.py:1161-1168 | Deleting the shown photo and reading the folder again leaves the view settled on the shorter list. |

## Findings

| source | as written | input that shows it | evidently intended | confidence | as-written member | corrected member |
|---|---|---|---|---|---|---|
| chitradrishya.py:807-809 | Each accepted file is read twice, `{"data": f.read(), "original_data": f.read()}`. The second read starts at the end of the stream and yields `b""`, so every preview's original is empty. "Reset Photo" (lines 1026-1032) then sets the preview's bytes to `b""` and reruns the page. On that rerun the thumbnail strip opens those bytes with the imaging library (line 945), which fails on empty input, so the editor page errors out after a reset. | One accepted file with content `[0x89]`: open the editor, then press "Reset Photo". | The original is the uploaded content, as the "Original" pane and the reset button assume. | not executed | UploadEditor.OpenPreviewsAsWritten, UploadEditor.ResetAsWrittenLosesBytes | UploadEditor.OpenPreviews, UploadEditor.ResetRestoresUpload |

## Left out

- Streamlit rendering, forms, session-state plumbing, CSS/HTML and the embedded JavaScript (cookie, crop canvas). These are user interface only. The crop coordinates are therefore not modelled, and an edit's result is a parameter.
- Cropping, rotating, thumbnails, `Image.open().verify()` and base64 encoding. These are foreign library calls. An edit's result is `Option<Blob>`, and the integrity check is a boolean.
- SQLite connections, table creation, `FORCE_DB_RESET` and environment loading, `os.access`/`os.remove`, and logging. These are I/O.
- The exception paths that only log and return False, for example a failing connection. These are I/O failures, not logic.
- `uuid.uuid4`, `names.get_full_name` and `datetime.now`. These are randomness and the clock, so they are parameters.
- The average rating and the plotly chart. These are floating point and presentation.
- `album_category.py`. It holds hard-coded data, tabs and a directory scan, with no logic beyond what is modelled.
- Database.LoadFolders: reads `LIKE '%q%'` as a plain, case-sensitive substring test. SQLite's ASCII case folding and its `%`/`_` wildcards inside the query are not modelled.
- Database.GetImages: does not model the skipping of rows whose bytes the imaging library cannot open, nor the thumbnail and base64 fields it adds.
- Database.AddFolder: takes the slug as given. The page lower-cases the typed slug before calling `add_folder`, and that call site is not modelled.
- Database.SwapImage: returns the new store rather than the source's constant True. The False of its exception path is not modelled.
- Upload.ValidateFile: lower-cases ASCII letters only. Python's `str.lower()` also folds other scripts, but no accepted value contains them.
- ImageHistory.UndoImageEdit: when several snapshots of one image share the newest timestamp, SQLite may return any of them. The model picks the earliest row. The edit-then-undo lemmas (EditThenUndo, TwoEditsUndoneInOrder) assume each new snapshot's timestamp is strictly later than that image's earlier ones, so they say nothing about a clock that is set back.
- UploadEditor.Save: the crop coordinates and the rotation angle that produce the edit are not modelled; the edit arrives as its result.
- UploadEditor: "Back to Upload" only discards the session, and the thumbnail picker only sets the selected index. Neither is modelled.
- ZoomView.Step: the `(idx+1/len)` caption and the download button are not modelled.

=== FILE: common.dfy ===
/** Shared vocabulary of the gallery model: an optional value, image bytes,
    an order-preserving filter over rows, and the text order SQLite uses to
    compare TEXT columns (used for ISO timestamps). */
module Common {

  /** A value that may be absent (Python's `None`). */
  datatype Option<+T> = None | Some(value: T)

  /** Image bytes. They are carried around opaquely; only their emptiness
      is ever inspected (Python treats `b""` as false). */
  type Blob = seq<bv8>

  /** The rows of `s` that satisfy `p`, in their original order: what a SQL
      `WHERE` keeps, or what a `DELETE ... WHERE not p` leaves behind. */
  function Filter<T(!new)>(p: T -> bool, s: seq<T>): (r: seq<T>)
    ensures |r| <= |s|
    ensures forall x :: x in r <==> x in s && p(x)
  {
    if |s| == 0 then []
    else
      assert s == [s[0]] + s[1..];
      (if p(s[0]) then [s[0]] else []) + Filter(p, s[1..])
  }

  /** Filtering a row appended at the end keeps the earlier rows' result
      and appends the new row exactly when it passes. */
  lemma {:induction false} FilterSnoc<T(!new)>(p: T -> bool, s: seq<T>, x: T)
    ensures Filter(p, s + [x]) == Filter(p, s) + (if p(x) then [x] else [])
  {
    if |s| == 0 {
      assert s + [x] == [x];
    } else {
      var t := s + [x];
      assert t[0] == s[0] && t[1..] == s[1..] + [x];
      FilterSnoc(p, s[1..], x);
      var head := if p(s[0]) then [s[0]] else [];
      assert Filter(p, t) == head + Filter(p, s[1..] + [x]);
      assert Filter(p, s) == head + Filter(p, s[1..]);
    }
  }

  /** Filtering keeps every passing row as often as it occurred and drops
      every other row entirely. */
  lemma {:induction false} FilterCounts<T(!new)>(p: T -> bool, s: seq<T>)
    ensures forall x :: multiset(Filter(p, s))[x] == if p(x) then multiset(s)[x] else 0
  {
    if |s| > 0 {
      FilterCounts(p, s[1..]);
      assert s == [s[0]] + s[1..];
    }
  }

  /** Filtering a row put in front. */
  lemma FilterCons<T(!new)>(p: T -> bool, x: T, rest: seq<T>)
    ensures Filter(p, [x] + rest) == (if p(x) then [x] else []) + Filter(p, rest)
  {
    assert ([x] + rest)[1..] == rest;
  }

  /** Dropping the one row `s[i]` that `keep` rejects shortens the rows that
      pass `q` by one, when `s[i]` passes `q`. */
  lemma {:induction false} FilterDropsOne<T(!new)>(keep: T -> bool, q: T -> bool, s: seq<T>, i: nat)
    requires i < |s| && !keep(s[i]) && q(s[i])
    requires forall j :: 0 <= j < |s| && j != i ==> keep(s[j])
    ensures |Filter(q, Filter(keep, s))| + 1 == |Filter(q, s)|
    decreases |s|
  {
    var x := s[0];
    var rest := s[1..];
    assert s == [x] + rest;
    FilterCons(q, x, rest);
    FilterCons(keep, x, rest);
    if i == 0 {
      forall j | 0 <= j < |rest| ensures keep(rest[j]) {
        assert rest[j] == s[j + 1];
      }
      FilterAll(keep, rest);
      assert Filter(keep, s) == rest;
      assert Filter(q, s) == [x] + Filter(q, rest);
    } else {
      forall j | 0 <= j < |rest| && j != i - 1 ensures keep(rest[j]) {
        assert rest[j] == s[j + 1];
      }
      FilterDropsOne(keep, q, rest, i - 1);
      FilterCons(q, x, Filter(keep, rest));
    }
  }

  /** A filter that every row passes keeps the whole sequence. */
  lemma {:induction false} FilterAll<T(!new)>(p: T -> bool, s: seq<T>)
    requires forall i :: 0 <= i < |s| ==> p(s[i])
    ensures Filter(p, s) == s
  {
    if |s| > 0 {
      FilterAll(p, s[1..]);
      assert s == [s[0]] + s[1..];
    }
  }

  /** Lexicographic order on text, character by character, a proper prefix
      first: SQLite's BINARY collation, since UTF-8 byte order agrees with
      code point order. ISO-8601 timestamps of one format sort by time. */
  predicate LexLe(a: string, b: string)
  {
    |a| == 0 || (|b| > 0 && (a[0] < b[0] || (a[0] == b[0] && LexLe(a[1..], b[1..]))))
  }

  predicate LexLt(a: string, b: string)
  {
    LexLe(a, b) && a != b
  }

  lemma {:induction false} LexLeReflexive(a: string)
    ensures LexLe(a, a)
  {
    if |a| > 0 {
      LexLeReflexive(a[1..]);
    }
  }

  lemma {:induction false} LexLeTotal(a: string, b: string)
    ensures LexLe(a, b) || LexLe(b, a)
  {
    if |a| > 0 && |b| > 0 && a[0] == b[0] {
      LexLeTotal(a[1..], b[1..]);
    }
  }

  lemma {:induction false} LexLeTransitive(a: string, b: string, c: string)
    requires LexLe(a, b) && LexLe(b, c)
    ensures LexLe(a, c)
  {
    if |a| > 0 && a[0] == b[0] && b[0] == c[0] {
      LexLeTransitive(a[1..], b[1..], c[1..]);
    }
  }

  lemma {:induction false} LexLeAntisymmetric(a: string, b: string)
    requires LexLe(a, b) && LexLe(b, a)
    ensures a == b
  {
    if |a| > 0 {
      LexLeAntisymmetric(a[1..], b[1..]);
      assert a == [a[0]] + a[1..];
      assert b == [b[0]] + b[1..];
    }
  }

  /** Whichever of two texts is not below the other is the later one. */
  lemma LexNotLtIsLe(a: string, b: string)
    requires !LexLt(a, b)
    ensures LexLe(b, a)
  {
    LexLeTotal(a, b);
    if a == b {
      LexLeReflexive(a);
    }
  }

  /** The rows of `s`, with `f` applied to every row satisfying `p`: what a
      SQL `UPDATE ... WHERE p` does to a table. */
  function UpdateWhere<T>(p: T -> bool, f: T -> T, s: seq<T>): (r: seq<T>)
    ensures |r| == |s|
    ensures forall i :: 0 <= i < |s| ==> r[i] == if p(s[i]) then f(s[i]) else s[i]
  {
    seq(|s|, i requires 0 <= i < |s| => if p(s[i]) then f(s[i]) else s[i])
  }

  /** Every two rows of `s`, the earlier one first, are related by `R`. */
  predicate Pairwise<T>(R: (T, T) -> bool, s: seq<T>)
  {
    forall i, j :: 0 <= i < j < |s| ==> R(s[i], s[j])
  }

  /** Dropping rows never breaks a pairwise property of the rest. */
  lemma {:induction false} FilterPairwise<T(!new)>(R: (T, T) -> bool, p: T -> bool, s: seq<T>)
    requires Pairwise(R, s)
    ensures Pairwise(R, Filter(p, s))
  {
    if |s| > 0 {
      var rest := s[1..];
      assert Pairwise(R, rest) by {
        forall i, j | 0 <= i < j < |rest|
          ensures R(rest[i], rest[j])
        {
          assert rest[i] == s[i + 1] && rest[j] == s[j + 1];
        }
      }
      FilterPairwise(R, p, rest);
      var t := Filter(p, rest);
      if p(s[0]) {
        forall j | 0 <= j < |t|
          ensures R(s[0], t[j])
        {
          assert t[j] in rest;
          var m :| 0 <= m < |rest| && rest[m] == t[j];
          assert s[m + 1] == t[j];
        }
        var u := [s[0]] + t;
        assert Filter(p, s) == u;
        forall i, j | 0 <= i < j < |u|
          ensures R(u[i], u[j])
        {
          if i > 0 {
            assert u[i] == t[i - 1] && u[j] == t[j - 1];
          } else {
            assert u[j] == t[j - 1];
          }
        }
      }
    }
  }
}

=== FILE: database.dfy ===
/** The gallery's SQLite database (the `DatabaseManager` class of
    chitradrishya.py) as an in-memory store: one sequence of rows per table,
    in row-id order, and every method as a pure transition from one store to
    the next. Connections, commits and I/O failures are not part of the
    model; random person names and UUID file names are supplied by the
    caller. */
module Database {
  import opened Common
  import opened Slug

  /** A row of `folders`: one person's gallery, keyed by its slug. */
  datatype Folder = Folder(slug: string, name: string, age: int, profession: string, category: string)

  /** A row of `images`: `id` is the AUTOINCREMENT key, `name` the stored
      file name, `folder` the owning slug. */
  datatype Image = Image(id: nat, name: string, folder: string, data: Blob, download: bool)

  /** A row of `surveys`: a star rating and comment left on a folder. */
  datatype Survey = Survey(folder: string, rating: int, feedback: string, timestamp: string)

  /** A row of `image_history`: the bytes an image had before an edit. */
  datatype Snapshot = Snapshot(imageId: nat, folder: string, data: Blob, timestamp: string)

  /** The four tables, and the next value of the `images` AUTOINCREMENT
      counter (SQLite never hands out a deleted id again). */
  datatype Store = Store(
    folders: seq<Folder>,
    images: seq<Image>,
    surveys: seq<Survey>,
    history: seq<Snapshot>,
    nextImageId: nat)

  /** A method's boolean answer with the store it leaves behind. */
  datatype Reply = Reply(ok: bool, store: Store)

  /** The tables as `CREATE TABLE IF NOT EXISTS` makes them in a new file. */
  const Empty: Store := Store([], [], [], [], 1)

  function Slugs(fs: seq<Folder>): set<string>
  {
    set f | f in fs :: f.slug
  }

  /** The row the pair (folder, file name) selects in `images`. */
  predicate Named(img: Image, folder: string, name: string)
  {
    img.folder == folder && img.name == name
  }

  /** Two different image rows: distinct ids, and distinct (folder, name). */
  predicate DistinctRows(a: Image, b: Image)
  {
    a.id != b.id && (a.folder != b.folder || a.name != b.name)
  }

  /** What every reachable store satisfies: slugs are unique (the UNIQUE
      constraint) and pass the slug check, every image sits in an existing
      folder under an id the counter has handed out, and no two images share
      an id or a (folder, name) pair. */
  predicate Valid(s: Store)
  {
    && 1 <= s.nextImageId
    && (forall i, j :: 0 <= i < j < |s.folders| ==> s.folders[i].slug != s.folders[j].slug)
    && (forall i :: 0 <= i < |s.folders| ==> ValidateFolderName(s.folders[i].slug))
    && (forall i :: 0 <= i < |s.images| ==> s.images[i].folder in Slugs(s.folders))
    && (forall i :: 0 <= i < |s.images| ==> 1 <= s.images[i].id < s.nextImageId)
    && Pairwise(DistinctRows, s.images)
  }

  lemma EmptyValid()
    ensures Valid(Empty)
  {
  }

  lemma SlugsAppend(fs: seq<Folder>, f: Folder)
    ensures Slugs(fs + [f]) == Slugs(fs) + {f.slug}
  {
    assert forall g :: g in fs + [g] <==> true;
  }

  // ---------------------------------------------------------------------
  // add_folder
  // ---------------------------------------------------------------------

  /** `add_folder` (chitradrishya.py:213-236): an invalid slug is refused
      before the database is touched, a slug already present fails the
      UNIQUE constraint, anything else appends exactly one row. */
  function AddFolder(s: Store, slug: string, name: string, age: int, profession: string, category: string): (r: Reply)
    ensures r.ok <==> ValidateFolderName(slug) && slug !in Slugs(s.folders)
    ensures !r.ok ==> r.store == s
    ensures r.ok ==> r.store == s.(folders := s.folders + [Folder(slug, name, age, profession, category)])
    ensures Slugs(r.store.folders) == Slugs(s.folders) + (if r.ok then {slug} else {})
  {
    var row := Folder(slug, name, age, profession, category);
    SlugsAppend(s.folders, row);
    if !ValidateFolderName(slug) then Reply(false, s)
    else if slug in Slugs(s.folders) then Reply(false, s)
    else Reply(true, s.(folders := s.folders + [row]))
  }

  /** Adding a folder keeps the slugs unique and the store valid. */
  lemma AddFolderPreservesValid(s: Store, slug: string, name: string, age: int, profession: string, category: string)
    requires Valid(s)
    ensures Valid(AddFolder(s, slug, name, age, profession, category).store)
  {
    var r := AddFolder(s, slug, name, age, profession, category);
    if r.ok {
      var fs := r.store.folders;
      forall i, j | 0 <= i < j < |fs|
        ensures fs[i].slug != fs[j].slug
      {
        if j == |fs| - 1 {
          assert s.folders[i] in s.folders;
        }
      }
    }
  }

  /** Once a slug is taken, adding it again fails whatever the other
      fields are. */
  lemma AddFolderTwice(s: Store, slug: string, n1: string, a1: int, p1: string, c1: string,
                       n2: string, a2: int, p2: string, c2: string)
    ensures var r1 := AddFolder(s, slug, n1, a1, p1, c1);
            !AddFolder(r1.store, slug, n2, a2, p2, c2).ok
  {
    var r1 := AddFolder(s, slug, n1, a1, p1, c1);
    if r1.ok {
      assert r1.store.folders[|s.folders|].slug == slug;
      assert r1.store.folders[|s.folders|] in r1.store.folders;
    }
  }

  // ---------------------------------------------------------------------
  // init_db: seeding the default folders
  // ---------------------------------------------------------------------

  /** One of the folders `init_db` seeds; the person's name comes from a
      random-name generator and is supplied separately. */
  datatype DefaultFolder = DefaultFolder(slug: string, age: int, profession: string, category: string)

  const DefaultFolders: seq<DefaultFolder> := [
    DefaultFolder("artist1", 26, "Graphic Designer", "Artists"),
    DefaultFolder("artist2", 29, "Painter", "Artists"),
    DefaultFolder("teacher1", 30, "Literature Teacher", "Teachers"),
    DefaultFolder("artist3", 27, "Musician", "Artists"),
    DefaultFolder("engineer1", 47, "Data Scientist", "Engineers"),
    DefaultFolder("engineer2", 25, "Software Developer", "Engineers"),
    DefaultFolder("teacher2", 34, "History Teacher", "Teachers")
  ]

  const DefaultSlugs: set<string> := set i | 0 <= i < |DefaultFolders| :: DefaultFolders[i].slug

  /** The slugs among `ds` that pass the slug check. */
  function SeedableSlugs(ds: seq<DefaultFolder>): set<string>
  {
    set i | 0 <= i < |ds| && ValidateFolderName(ds[i].slug) :: ds[i].slug
  }

  /** The seeding loop of `init_db`: each default whose slug is valid and
      not yet present (counting the rows this loop inserted) is appended.
      Only the folders change, the old rows stay in front, and every added
      row has a valid slug that was not there before, at most one per
      default. */
  function Seed(s: Store, ds: seq<DefaultFolder>, names: seq<string>): (r: Store)
    requires |names| == |ds|
    ensures r.(folders := s.folders) == s
    ensures s.folders <= r.folders && |r.folders| <= |s.folders| + |ds|
    ensures forall i :: |s.folders| <= i < |r.folders| ==>
              ValidateFolderName(r.folders[i].slug) && r.folders[i].slug !in Slugs(s.folders)
    decreases |ds|
  {
    if |ds| == 0 then s
    else
      var d := ds[0];
      var row := Folder(d.slug, names[0], d.age, d.profession, d.category);
      var added := ValidateFolderName(d.slug) && d.slug !in Slugs(s.folders);
      var s1 := if added then s.(folders := s.folders + [row]) else s;
      SlugsAppend(s.folders, row);
      var r := Seed(s1, ds[1..], names[1..]);
      assert added ==> r.folders[|s.folders|] == row by {
        if added {
          assert s1.folders <= r.folders;
        }
      }
      r
  }

  /** `init_db` on an existing store (chitradrishya.py:163-171); `names`
      are the generated person names, one per default folder. */
  function InitDb(s: Store, names: seq<string>): (r: Store)
    requires |names| == |DefaultFolders|
    ensures r.(folders := s.folders) == s
    ensures s.folders <= r.folders && |r.folders| <= |s.folders| + |DefaultFolders|
    ensures forall i :: |s.folders| <= i < |r.folders| ==>
              ValidateFolderName(r.folders[i].slug) && r.folders[i].slug !in Slugs(s.folders)
  {
    Seed(s, DefaultFolders, names)
  }

  /** Seeding adds exactly the valid default slugs to the slug set. */
  lemma {:induction false} SeedSlugs(s: Store, ds: seq<DefaultFolder>, names: seq<string>)
    requires |names| == |ds|
    ensures Slugs(Seed(s, ds, names).folders) == Slugs(s.folders) + SeedableSlugs(ds)
    decreases |ds|
  {
    if |ds| > 0 {
      var d := ds[0];
      var row := Folder(d.slug, names[0], d.age, d.profession, d.category);
      SlugsAppend(s.folders, row);
      var s1 :=
        if ValidateFolderName(d.slug) && d.slug !in Slugs(s.folders)
        then s.(folders := s.folders + [row])
        else s;
      SeedSlugs(s1, ds[1..], names[1..]);
      SeedableSlugsCons(ds);
    }
  }

  /** The seedable slugs of a list: its head's, if valid, and its tail's. */
  lemma SeedableSlugsCons(ds: seq<DefaultFolder>)
    requires |ds| > 0
    ensures SeedableSlugs(ds)
            == (if ValidateFolderName(ds[0].slug) then {ds[0].slug} else {}) + SeedableSlugs(ds[1..])
  {
    var rest := ds[1..];
    forall x | x in SeedableSlugs(ds)
      ensures x in (if ValidateFolderName(ds[0].slug) then {ds[0].slug} else {}) + SeedableSlugs(rest)
    {
      var i :| 0 <= i < |ds| && ValidateFolderName(ds[i].slug) && ds[i].slug == x;
      if i > 0 {
        assert rest[i - 1] == ds[i];
      }
    }
    forall x | x in SeedableSlugs(rest)
      ensures x in SeedableSlugs(ds)
    {
      var i :| 0 <= i < |rest| && ValidateFolderName(rest[i].slug) && rest[i].slug == x;
      assert ds[i + 1] == rest[i];
    }
  }

  /** Seeding inserts nothing once every valid default slug is present. */
  lemma {:induction false} SeedNoop(s: Store, ds: seq<DefaultFolder>, names: seq<string>)
    requires |names| == |ds|
    requires SeedableSlugs(ds) <= Slugs(s.folders)
    ensures Seed(s, ds, names) == s
    decreases |ds|
  {
    if |ds| > 0 {
      var rest := ds[1..];
      assert ValidateFolderName(ds[0].slug) ==> ds[0].slug in SeedableSlugs(ds);
      assert SeedableSlugs(rest) <= SeedableSlugs(ds) by {
        forall x | x in SeedableSlugs(rest)
          ensures x in SeedableSlugs(ds)
        {
          var i :| 0 <= i < |rest| && ValidateFolderName(rest[i].slug) && rest[i].slug == x;
          assert ds[i + 1] == rest[i];
        }
      }
      SeedNoop(s, ds[1..], names[1..]);
    }
  }

  /** Seeding keeps slugs unique and the store valid. */
  lemma {:induction false} SeedPreservesValid(s: Store, ds: seq<DefaultFolder>, names: seq<string>)
    requires |names| == |ds|
    requires Valid(s)
    ensures Valid(Seed(s, ds, names))
    decreases |ds|
  {
    if |ds| > 0 {
      var d := ds[0];
      if ValidateFolderName(d.slug) && d.slug !in Slugs(s.folders) {
        var s1 := AddFolder(s, d.slug, names[0], d.age, d.profession, d.category).store;
        AddFolderPreservesValid(s, d.slug, names[0], d.age, d.profession, d.category);
        SeedPreservesValid(s1, ds[1..], names[1..]);
      } else {
        SeedPreservesValid(s, ds[1..], names[1..]);
      }
    }
  }

  /** The seven default slugs are distinct and pass the slug check, so
      seeding may add exactly the seven of them. */
  lemma DefaultSlugsAreValid()
    ensures forall i :: 0 <= i < |DefaultFolders| ==> ValidateFolderName(DefaultFolders[i].slug)
    ensures forall i, j :: 0 <= i < j < |DefaultFolders| ==> DefaultFolders[i].slug != DefaultFolders[j].slug
    ensures SeedableSlugs(DefaultFolders) == DefaultSlugs
  {
    DefaultSlugsWellFormed();
    DefaultSlugsDistinct();
  }

  lemma DefaultSlugsWellFormed()
    ensures forall i :: 0 <= i < |DefaultFolders| ==> ValidateFolderName(DefaultFolders[i].slug)
  {
    forall i | 0 <= i < |DefaultFolders|
      ensures ValidateFolderName(DefaultFolders[i].slug)
    {
      var t := DefaultFolders[i].slug;
      assert AllSlugChars(t) by {
        forall k | 0 <= k < |t| ensures SlugChar(t[k]) {
        }
      }
      TrailingNewline(t);
    }
  }

  lemma DefaultSlugsDistinct()
    ensures forall i, j :: 0 <= i < j < |DefaultFolders| ==> DefaultFolders[i].slug != DefaultFolders[j].slug
  {
    forall i, j | 0 <= i < j < |DefaultFolders|
      ensures DefaultFolders[i].slug != DefaultFolders[j].slug
    {
    }
  }

  /** `init_db` adds exactly the seven default slugs, and running it again
      (as every rerun of the page does) changes nothing at all. */
  lemma InitDbIdempotent(s: Store, names1: seq<string>, names2: seq<string>)
    requires |names1| == |DefaultFolders| && |names2| == |DefaultFolders|
    ensures Slugs(InitDb(s, names1).folders) == Slugs(s.folders) + DefaultSlugs
    ensures InitDb(InitDb(s, names1), names2) == InitDb(s, names1)
  {
    assert SeedableSlugs(DefaultFolders) == DefaultSlugs by {
      DefaultSlugsAreValid();
    }
    var r := InitDb(s, names1);
    SeedSlugs(s, DefaultFolders, names1);
    assert Slugs(r.folders) == Slugs(s.folders) + DefaultSlugs;
    SeedNoop(r, DefaultFolders, names2);
  }

  /** On a fresh database `init_db` creates the seven defaults in order,
      with their fixed ages, professions and categories. */
  lemma InitDbOnEmpty(names: seq<string>)
    requires |names| == |DefaultFolders|
    ensures var r := InitDb(Empty, names);
            && Valid(r)
            && |r.folders| == |DefaultFolders|
            && forall i :: 0 <= i < |DefaultFolders| ==>
                 r.folders[i] == Folder(DefaultFolders[i].slug, names[i], DefaultFolders[i].age,
                                        DefaultFolders[i].profession, DefaultFolders[i].category)
  {
    DefaultSlugsAreValid();
    EmptyValid();
    SeedPreservesValid(Empty, DefaultFolders, names);
    SeedAllFresh(Empty, DefaultFolders, names);
  }

  /** Seeding defaults with valid, mutually distinct and absent slugs
      appends one row per default. */
  lemma {:induction false} SeedAllFresh(s: Store, ds: seq<DefaultFolder>, names: seq<string>)
    requires |names| == |ds|
    requires forall i :: 0 <= i < |ds| ==> ValidateFolderName(ds[i].slug) && ds[i].slug !in Slugs(s.folders)
    requires forall i, j :: 0 <= i < j < |ds| ==> ds[i].slug != ds[j].slug
    ensures var r := Seed(s, ds, names);
            && |r.folders| == |s.folders| + |ds|
            && forall i :: 0 <= i < |ds| ==>
                 r.folders[|s.folders| + i] == Folder(ds[i].slug, names[i], ds[i].age, ds[i].profession, ds[i].category)
    decreases |ds|
  {
    if |ds| > 0 {
      var d := ds[0];
      var row := Folder(d.slug, names[0], d.age, d.profession, d.category);
      var s1 := s.(folders := s.folders + [row]);
      SlugsAppend(s.folders, row);
      SeedAllFresh(s1, ds[1..], names[1..]);
      var r := Seed(s, ds, names);
      assert r == Seed(s1, ds[1..], names[1..]);
      assert r.folders[|s.folders|] == row by {
        assert s1.folders <= r.folders;
      }
    }
  }

  // ---------------------------------------------------------------------
  // load_folders, update_folder_name
  // ---------------------------------------------------------------------

  predicate Contains(text: string, q: string)
  {
    exists i :: 0 <= i <= |text| && q <= text[i..]
  }

  /** The search of `load_folders`: the query occurs in the person name,
      the slug, the profession or the category (the age is not searched). */
  predicate MatchesQuery(f: Folder, q: string)
  {
    Contains(f.name, q) || Contains(f.slug, q) || Contains(f.profession, q) || Contains(f.category, q)
  }

  /** `load_folders` (chitradrishya.py:182-191) with `LIKE '%q%'` read as a
      plain substring test. */
  function LoadFolders(s: Store, query: string): (r: seq<Folder>)
    ensures |r| <= |s.folders|
    ensures forall f :: f in r <==> f in s.folders && MatchesQuery(f, query)
  {
    Filter((f: Folder) => MatchesQuery(f, query), s.folders)
  }

  /** The default empty query lists every folder, in table order. */
  lemma LoadFoldersEmptyQuery(s: Store)
    ensures LoadFolders(s, "") == s.folders
  {
    forall i | 0 <= i < |s.folders|
      ensures MatchesQuery(s.folders[i], "")
    {
      assert "" <= s.folders[i].name[0..];
    }
    FilterAll((f: Folder) => MatchesQuery(f, ""), s.folders);
  }

  /** `update_folder_name` (chitradrishya.py:196-204): the person name of
      the rows with that slug changes; nothing else does. The method answers
      True whether or not a row matched, so the answer is not modelled. */
  function UpdateFolderName(s: Store, slug: string, newName: string): (r: Store)
    ensures r.(folders := s.folders) == s
    ensures |r.folders| == |s.folders|
    ensures forall i :: 0 <= i < |s.folders| ==> r.folders[i].(name := s.folders[i].name) == s.folders[i]
    ensures forall i :: 0 <= i < |s.folders| ==>
              r.folders[i].name == if s.folders[i].slug == slug then newName else s.folders[i].name
  {
    s.(folders := UpdateWhere((f: Folder) => f.slug == slug, (f: Folder) => f.(name := newName), s.folders))
  }

  /** Renaming keeps every slug, hence the store valid. */
  lemma UpdateFolderNamePreservesValid(s: Store, slug: string, newName: string)
    requires Valid(s)
    ensures Slugs(UpdateFolderName(s, slug, newName).folders) == Slugs(s.folders)
    ensures Valid(UpdateFolderName(s, slug, newName))
  {
    var r := UpdateFolderName(s, slug, newName);
    forall x | x in Slugs(s.folders) ensures x in Slugs(r.folders) {
      var i :| 0 <= i < |s.folders| && s.folders[i].slug == x;
      assert r.folders[i].slug == x;
    }
    forall x | x in Slugs(r.folders) ensures x in Slugs(s.folders) {
      var i :| 0 <= i < |r.folders| && r.folders[i].slug == x;
      assert s.folders[i].slug == x;
    }
  }

  /** Of two renames of the same folder only the later one is visible. */
  lemma UpdateFolderNameLastWins(s: Store, slug: string, a: string, b: string)
    ensures UpdateFolderName(UpdateFolderName(s, slug, a), slug, b) == UpdateFolderName(s, slug, b)
  {
  }

  /** Renaming a folder and then renaming it back restores the store. */
  lemma UpdateFolderNameUndo(s: Store, i: nat, newName: string)
    requires Valid(s) && i < |s.folders|
    ensures var slug := s.folders[i].slug;
            UpdateFolderName(UpdateFolderName(s, slug, newName), slug, s.folders[i].name) == s
  {
    var slug := s.folders[i].slug;
    var r := UpdateFolderName(UpdateFolderName(s, slug, newName), slug, s.folders[i].name);
    assert forall j :: 0 <= j < |s.folders| && j != i ==> s.folders[j].slug != slug;
    assert r.folders == s.folders;
  }

  // ---------------------------------------------------------------------
  // load_images_to_db, get_images
  // ---------------------------------------------------------------------

  /** The stored file name of an upload: a UUID and the ".png" extension. */
  function ImageFileName(uuid: string): (n: string)
    ensures |n| == |uuid| + 4 && n[..|uuid|] == uuid
  {
    uuid + ".png"
  }

  predicate NameTaken(images: seq<Image>, folder: string, name: string)
  {
    exists i :: 0 <= i < |images| && Named(images[i], folder, name)
  }

  /** The insertion loop of `load_images_to_db`: for each blob, the file
      name made from its UUID is inserted unless that folder already has a
      file of that name. */
  function InsertImages(s: Store, blobs: seq<Blob>, folder: string, download: bool, uuids: seq<string>): (r: Store)
    requires |uuids| == |blobs|
    ensures r.(images := s.images, nextImageId := s.nextImageId) == s
    ensures s.images <= r.images && |r.images| <= |s.images| + |blobs|
    ensures r.nextImageId == s.nextImageId + (|r.images| - |s.images|)
    ensures forall i :: |s.images| <= i < |r.images| ==>
              && r.images[i].folder == folder
              && r.images[i].download == download
              && r.images[i].id == s.nextImageId + (i - |s.images|)
    decreases |blobs|
  {
    if |blobs| == 0 then s
    else InsertImages(InsertOne(s, blobs[0], folder, download, ImageFileName(uuids[0])),
                      blobs[1..], folder, download, uuids[1..])
  }

  /** Every row the loop adds holds one of the blobs it was given. */
  lemma {:induction false} InsertImagesFromBlobs(s: Store, blobs: seq<Blob>, folder: string, download: bool, uuids: seq<string>)
    requires |uuids| == |blobs|
    ensures forall i :: |s.images| <= i < |InsertImages(s, blobs, folder, download, uuids).images| ==>
              InsertImages(s, blobs, folder, download, uuids).images[i].data in blobs
    decreases |blobs|
  {
    if |blobs| > 0 {
      var s1 := InsertOne(s, blobs[0], folder, download, ImageFileName(uuids[0]));
      InsertImagesFromBlobs(s1, blobs[1..], folder, download, uuids[1..]);
      var r := InsertImages(s, blobs, folder, download, uuids);
      assert r == InsertImages(s1, blobs[1..], folder, download, uuids[1..]);
      forall i | |s.images| <= i < |r.images| ensures r.images[i].data in blobs {
        if i < |s1.images| {
          assert r.images[i] == s1.images[i];
          assert s1.images[i].data == blobs[0];
        } else {
          assert r.images[i].data in blobs[1..];
        }
      }
    }
  }

  /** One turn of that loop: the `SELECT COUNT(*)` guard, then the INSERT
      under the next id. */
  function InsertOne(s: Store, blob: Blob, folder: string, download: bool, name: string): (r: Store)
    ensures NameTaken(s.images, folder, name) ==> r == s
    ensures !NameTaken(s.images, folder, name) ==>
              r == s.(images := s.images + [Image(s.nextImageId, name, folder, blob, download)],
                      nextImageId := s.nextImageId + 1)
  {
    if NameTaken(s.images, folder, name) then s
    else s.(images := s.images + [Image(s.nextImageId, name, folder, blob, download)],
            nextImageId := s.nextImageId + 1)
  }

  /** One insertion keeps ids and (folder, name) pairs unique. */
  lemma InsertOnePreservesValid(s: Store, blob: Blob, folder: string, download: bool, name: string)
    requires Valid(s) && folder in Slugs(s.folders)
    ensures Valid(InsertOne(s, blob, folder, download, name))
  {
    if !NameTaken(s.images, folder, name) {
      var s1 := InsertOne(s, blob, folder, download, name);
      forall i, j | 0 <= i < j < |s1.images|
        ensures DistinctRows(s1.images[i], s1.images[j])
      {
        if j == |s.images| {
          assert !Named(s.images[i], folder, name);
        } else {
          assert DistinctRows(s.images[i], s.images[j]);
        }
      }
    }
  }

  /** Distinct UUIDs give distinct file names. */
  lemma ImageFileNameInjective(u: string, v: string)
    requires u != v
    ensures ImageFileName(u) != ImageFileName(v)
  {
    if |u| == |v| {
      assert ImageFileName(u)[..|u|] == u;
      assert ImageFileName(v)[..|v|] == v;
    }
  }

  /** A name not taken before one insertion of another name is still not
      taken after it. */
  lemma InsertOneKeepsFree(s: Store, blob: Blob, folder: string, download: bool, name: string, other: string)
    requires other != name && !NameTaken(s.images, folder, other)
    ensures !NameTaken(InsertOne(s, blob, folder, download, name).images, folder, other)
  {
  }

  /** `load_images_to_db` (chitradrishya.py:241-257): nothing is inserted
      into a folder that does not exist (the ValueError is caught and only
      reported); otherwise the blobs are inserted into that folder with the
      given download flag. Only the `images` table and its counter change. */
  function LoadImagesToDb(s: Store, blobs: seq<Blob>, folder: string, download: bool, uuids: seq<string>): (r: Store)
    requires |uuids| == |blobs|
    ensures folder !in Slugs(s.folders) ==> r == s
    ensures r.(images := s.images, nextImageId := s.nextImageId) == s
    ensures s.images <= r.images
    ensures |r.images| <= |s.images| + |blobs|
    ensures forall i :: |s.images| <= i < |r.images| ==> r.images[i].folder == folder && r.images[i].download == download
    ensures forall i :: |s.images| <= i < |r.images| ==> r.images[i].data in blobs
  {
    if folder !in Slugs(s.folders) then s
    else
      InsertImagesFromBlobs(s, blobs, folder, download, uuids);
      InsertImages(s, blobs, folder, download, uuids)
  }

  /** With fresh UUIDs (pairwise distinct, none already naming a file of
      that folder) every blob becomes exactly one new row, in input order,
      with consecutive new ids. */
  lemma {:induction false} InsertImagesFresh(s: Store, blobs: seq<Blob>, folder: string, download: bool, uuids: seq<string>)
    requires |uuids| == |blobs|
    requires forall i, j :: 0 <= i < j < |uuids| ==> uuids[i] != uuids[j]
    requires forall i :: 0 <= i < |uuids| ==> !NameTaken(s.images, folder, ImageFileName(uuids[i]))
    ensures var r := InsertImages(s, blobs, folder, download, uuids);
            && |r.images| == |s.images| + |blobs|
            && forall k :: 0 <= k < |blobs| ==>
                 r.images[|s.images| + k] == Image(s.nextImageId + k, ImageFileName(uuids[k]), folder, blobs[k], download)
    decreases |blobs|
  {
    if |blobs| > 0 {
      var name := ImageFileName(uuids[0]);
      var s1 := InsertOne(s, blobs[0], folder, download, name);
      assert s1.images == s.images + [Image(s.nextImageId, name, folder, blobs[0], download)];
      forall i | 0 <= i < |uuids[1..]|
        ensures !NameTaken(s1.images, folder, ImageFileName(uuids[1..][i]))
      {
        assert uuids[0] != uuids[i + 1];
        ImageFileNameInjective(uuids[i + 1], uuids[0]);
        InsertOneKeepsFree(s, blobs[0], folder, download, name, ImageFileName(uuids[i + 1]));
      }
      InsertImagesFresh(s1, blobs[1..], folder, download, uuids[1..]);
      var r := InsertImages(s, blobs, folder, download, uuids);
      assert r.images[|s.images|] == s1.images[|s.images|] by {
        assert s1.images <= r.images;
      }
    }
  }

  /** The upload of fresh files into an existing folder adds one row per
      blob, each in that folder with the chosen download flag. */
  lemma LoadImagesFresh(s: Store, blobs: seq<Blob>, folder: string, download: bool, uuids: seq<string>)
    requires |uuids| == |blobs|
    requires folder in Slugs(s.folders)
    requires forall i, j :: 0 <= i < j < |uuids| ==> uuids[i] != uuids[j]
    requires forall i :: 0 <= i < |uuids| ==> !NameTaken(s.images, folder, ImageFileName(uuids[i]))
    ensures var r := LoadImagesToDb(s, blobs, folder, download, uuids);
            && |r.images| == |s.images| + |blobs|
            && forall k :: 0 <= k < |blobs| ==>
                 r.images[|s.images| + k] == Image(s.nextImageId + k, ImageFileName(uuids[k]), folder, blobs[k], download)
  {
    InsertImagesFresh(s, blobs, folder, download, uuids);
  }

  /** Inserting images keeps ids and (folder, name) pairs unique and every
      image inside an existing folder. */
  lemma {:induction false} InsertImagesPreservesValid(s: Store, blobs: seq<Blob>, folder: string, download: bool, uuids: seq<string>)
    requires |uuids| == |blobs|
    requires Valid(s) && folder in Slugs(s.folders)
    ensures Valid(InsertImages(s, blobs, folder, download, uuids))
    decreases |blobs|
  {
    if |blobs| > 0 {
      var s1 := InsertOne(s, blobs[0], folder, download, ImageFileName(uuids[0]));
      InsertOnePreservesValid(s, blobs[0], folder, download, ImageFileName(uuids[0]));
      InsertImagesPreservesValid(s1, blobs[1..], folder, download, uuids[1..]);
    }
  }

  lemma LoadImagesPreservesValid(s: Store, blobs: seq<Blob>, folder: string, download: bool, uuids: seq<string>)
    requires |uuids| == |blobs|
    requires Valid(s)
    ensures Valid(LoadImagesToDb(s, blobs, folder, download, uuids))
  {
    if folder in Slugs(s.folders) {
      InsertImagesPreservesValid(s, blobs, folder, download, uuids);
    }
  }

  /** `get_images` (chitradrishya.py:413-438): the images of one folder, in
      table order. Rows whose bytes the imaging library cannot open are
      skipped by the source; that decoding step is not modelled. */
  function GetImages(s: Store, folder: string): (r: seq<Image>)
    ensures |r| <= |s.images|
    ensures forall img :: img in r <==> img in s.images && img.folder == folder
  {
    Filter((img: Image) => img.folder == folder, s.images)
  }

  // ---------------------------------------------------------------------
  // swap_image, update_download_permission, delete_image
  // ---------------------------------------------------------------------

  /** `swap_image` (chitradrishya.py:268-278): the bytes of the image with
      that folder and name are replaced; every other row, every other field
      and every other table stay as they were. */
  function SwapImage(s: Store, folder: string, name: string, data: Blob): (r: Store)
    ensures r.(images := s.images) == s
    ensures |r.images| == |s.images|
    ensures forall i :: 0 <= i < |s.images| ==> r.images[i].(data := s.images[i].data) == s.images[i]
    ensures forall i :: 0 <= i < |s.images| ==>
              r.images[i].data == if Named(s.images[i], folder, name) then data else s.images[i].data
  {
    s.(images := UpdateWhere((img: Image) => Named(img, folder, name), (img: Image) => img.(data := data), s.images))
  }

  /** `update_download_permission` (chitradrishya.py:345-353): only the
      download flag of the image with that folder and name changes. */
  function UpdateDownloadPermission(s: Store, folder: string, name: string, allowed: bool): (r: Store)
    ensures r.(images := s.images) == s
    ensures |r.images| == |s.images|
    ensures forall i :: 0 <= i < |s.images| ==> r.images[i].(download := s.images[i].download) == s.images[i]
    ensures forall i :: 0 <= i < |s.images| ==>
              r.images[i].download == if Named(s.images[i], folder, name) then allowed else s.images[i].download
  {
    s.(images := UpdateWhere((img: Image) => Named(img, folder, name), (img: Image) => img.(download := allowed), s.images))
  }

  /** Updates that leave ids, folders and names alone keep the store valid. */
  lemma SameKeysValid(s: Store, t: Store)
    requires Valid(s)
    requires t.folders == s.folders && t.nextImageId == s.nextImageId && |t.images| == |s.images|
    requires forall i :: 0 <= i < |s.images| ==>
               t.images[i].id == s.images[i].id && t.images[i].folder == s.images[i].folder && t.images[i].name == s.images[i].name
    ensures Valid(t)
  {
    forall i, j | 0 <= i < j < |t.images|
      ensures DistinctRows(t.images[i], t.images[j])
    {
      assert DistinctRows(s.images[i], s.images[j]);
    }
  }

  lemma SwapImagePreservesValid(s: Store, folder: string, name: string, data: Blob)
    requires Valid(s)
    ensures Valid(SwapImage(s, folder, name, data))
  {
    SameKeysValid(s, SwapImage(s, folder, name, data));
  }

  lemma UpdateDownloadPermissionPreservesValid(s: Store, folder: string, name: string, allowed: bool)
    requires Valid(s)
    ensures Valid(UpdateDownloadPermission(s, folder, name, allowed))
  {
    SameKeysValid(s, UpdateDownloadPermission(s, folder, name, allowed));
  }

  /** Replacing an image's bytes and then putting the old bytes back
      restores the store exactly. */
  lemma SwapImageUndo(s: Store, i: nat, data: Blob)
    requires Valid(s) && i < |s.images|
    ensures var img := s.images[i];
            SwapImage(SwapImage(s, img.folder, img.name, data), img.folder, img.name, img.data) == s
  {
    var img := s.images[i];
    var r := SwapImage(SwapImage(s, img.folder, img.name, data), img.folder, img.name, img.data);
    forall j | 0 <= j < |s.images| ensures r.images[j] == s.images[j] {
      if j < i {
        assert DistinctRows(s.images[j], s.images[i]);
      } else if i < j {
        assert DistinctRows(s.images[i], s.images[j]);
      }
    }
  }

  /** Writing an image's own bytes back changes nothing. */
  lemma SwapImageSame(s: Store, i: nat)
    requires Valid(s) && i < |s.images|
    ensures SwapImage(s, s.images[i].folder, s.images[i].name, s.images[i].data) == s
  {
    var img := s.images[i];
    var r := SwapImage(s, img.folder, img.name, img.data);
    forall j | 0 <= j < |s.images| ensures r.images[j] == s.images[j] {
      if j < i {
        assert DistinctRows(s.images[j], s.images[i]);
      } else if i < j {
        assert DistinctRows(s.images[i], s.images[j]);
      }
    }
  }

  /** Of two permission updates of the same image only the later counts. */
  lemma UpdateDownloadPermissionLastWins(s: Store, folder: string, name: string, a: bool, b: bool)
    ensures UpdateDownloadPermission(UpdateDownloadPermission(s, folder, name, a), folder, name, b)
         == UpdateDownloadPermission(s, folder, name, b)
  {
  }

  /** `delete_image` (chitradrishya.py:358-365): exactly the rows with that
      folder and name disappear; the others keep their order and number. */
  function DeleteImage(s: Store, folder: string, name: string): (r: Store)
    ensures r.(images := s.images) == s
    ensures forall img :: img in r.images <==> img in s.images && !Named(img, folder, name)
    ensures forall img :: multiset(r.images)[img] == if Named(img, folder, name) then 0 else multiset(s.images)[img]
  {
    var keep := (img: Image) => !Named(img, folder, name);
    FilterCounts(keep, s.images);
    s.(images := Filter(keep, s.images))
  }

  lemma DeleteImagePreservesValid(s: Store, folder: string, name: string)
    requires Valid(s)
    ensures Valid(DeleteImage(s, folder, name))
  {
    FilterPairwise(DistinctRows, (img: Image) => !Named(img, folder, name), s.images);
    var r := DeleteImage(s, folder, name);
    forall i | 0 <= i < |r.images|
      ensures r.images[i].folder in Slugs(r.folders) && 1 <= r.images[i].id < r.nextImageId
    {
      assert r.images[i] in s.images;
    }
  }

  /** Deleting a name the folder does not hold changes nothing. */
  lemma DeleteImageAbsent(s: Store, folder: string, name: string)
    requires !NameTaken(s.images, folder, name)
    ensures DeleteImage(s, folder, name) == s
  {
    FilterAll((img: Image) => !Named(img, folder, name), s.images);
  }

  /** Deleting over a table with one more row at the end. */
  lemma DeleteImageSnoc(s: Store, x: Image, folder: string, name: string)
    ensures DeleteImage(s.(images := s.images + [x]), folder, name).images
            == DeleteImage(s, folder, name).images + (if Named(x, folder, name) then [] else [x])
  {
    FilterSnoc((img: Image) => !Named(img, folder, name), s.images, x);
  }

  /** Deleting a freshly uploaded image restores every table; only the
      AUTOINCREMENT counter remembers the upload. */
  lemma UploadThenDelete(s: Store, blob: Blob, folder: string, download: bool, uuid: string)
    requires folder in Slugs(s.folders)
    requires !NameTaken(s.images, folder, ImageFileName(uuid))
    ensures var up := LoadImagesToDb(s, [blob], folder, download, [uuid]);
            DeleteImage(up, folder, ImageFileName(uuid)) == s.(nextImageId := s.nextImageId + 1)
  {
    var name := ImageFileName(uuid);
    var one := Image(s.nextImageId, name, folder, blob, download);
    var s1 := InsertOne(s, blob, folder, download, name);
    assert s1 == s.(images := s.images + [one], nextImageId := s.nextImageId + 1);
    assert [blob][1..] == [] && [uuid][1..] == [];
    assert InsertImages(s, [blob], folder, download, [uuid]) == InsertImages(s1, [], folder, download, []);
    var up := LoadImagesToDb(s, [blob], folder, download, [uuid]);
    assert up == s1;
    DeleteImageSnoc(s, one, folder, name);
    DeleteImageAbsent(s, folder, name);
    var d := DeleteImage(s1, folder, name);
    assert d.images == s.images;
    assert d == s1.(images := s.images);
  }

  // ---------------------------------------------------------------------
  // surveys
  // ---------------------------------------------------------------------

  /** `save_survey_data` (chitradrishya.py:388-396): one row is appended.
      The folder is not checked; SQLite does not enforce the declared
      foreign key unless asked to. */
  function SaveSurveyData(s: Store, folder: string, rating: int, feedback: string, timestamp: string): (r: Store)
    ensures r.(surveys := s.surveys) == s
    ensures |r.surveys| == |s.surveys| + 1 && r.surveys[..|s.surveys|] == s.surveys
    ensures r.surveys[|s.surveys|] == Survey(folder, rating, feedback, timestamp)
  {
    s.(surveys := s.surveys + [Survey(folder, rating, feedback, timestamp)])
  }

  /** `delete_survey_entry` (chitradrishya.py:401-408): exactly the rows of
      that folder with that timestamp disappear. */
  function DeleteSurveyEntry(s: Store, folder: string, timestamp: string): (r: Store)
    ensures r.(surveys := s.surveys) == s
    ensures forall x :: x in r.surveys <==> x in s.surveys && !(x.folder == folder && x.timestamp == timestamp)
    ensures forall x :: multiset(r.surveys)[x] ==
              if x.folder == folder && x.timestamp == timestamp then 0 else multiset(s.surveys)[x]
  {
    var keep := (x: Survey) => !(x.folder == folder && x.timestamp == timestamp);
    FilterCounts(keep, s.surveys);
    s.(surveys := Filter(keep, s.surveys))
  }

  /** Deleting a survey just submitted under a new timestamp restores the
      store. */
  lemma SaveThenDeleteSurvey(s: Store, folder: string, rating: int, feedback: string, timestamp: string)
    requires forall i :: 0 <= i < |s.surveys| ==> !(s.surveys[i].folder == folder && s.surveys[i].timestamp == timestamp)
    ensures DeleteSurveyEntry(SaveSurveyData(s, folder, rating, feedback, timestamp), folder, timestamp) == s
  {
    var keep := (x: Survey) => !(x.folder == folder && x.timestamp == timestamp);
    FilterSnoc(keep, s.surveys, Survey(folder, rating, feedback, timestamp));
    FilterAll(keep, s.surveys);
  }

  /** The survey operations never touch folders or images, so they keep
      the store valid. */
  lemma SurveysPreserveValid(s: Store, folder: string, rating: int, feedback: string, timestamp: string)
    requires Valid(s)
    ensures Valid(SaveSurveyData(s, folder, rating, feedback, timestamp))
    ensures Valid(DeleteSurveyEntry(s, folder, timestamp))
  {
  }
}

=== FILE: editor.dfy ===
/** The "Edit & Upload" session: every accepted file becomes a preview with
    its current bytes and its original bytes, and an undo stack of earlier
    bytes is kept per file NAME (so two uploads with the same name share
    one stack). Saving an edit pushes the current bytes, undo pops them
    back, reset restores the original and empties the stack. Cropping and
    rotating are foreign calls; their outcome arrives as a parameter. */
module UploadEditor {
  import opened Common
  import opened Upload
  import opened Database

  /** One file being edited: `data` is what is shown and will be saved,
      `original` what the reset button brings back. */
  datatype Preview = Preview(name: string, data: Blob, original: Blob)

  /** The previews in upload order, and the undo stacks by file name. */
  datatype Session = Session(previews: seq<Preview>, history: map<string, seq<Blob>>)

  /** Every preview has an undo stack to push onto and pop from. */
  predicate WellFormed(e: Session)
  {
    forall i :: 0 <= i < |e.previews| ==> e.previews[i].name in e.history
  }

  /** Whether the edit produced bytes the source accepts (Python treats
      `None` and `b""` as false). */
  predicate Produced(edited: Option<Blob>)
  {
    edited.Some? && |edited.value| > 0
  }

  /** `{f.name: [] for f in previews}`: an empty stack per distinct name. */
  function FreshHistory(files: seq<UploadedFile>): (h: map<string, seq<Blob>>)
    ensures forall name :: name in h <==> exists i :: 0 <= i < |files| && files[i].name == name
    ensures forall name :: name in h ==> h[name] == []
  {
    var names := set i | 0 <= i < |files| :: files[i].name;
    map name | name in names :: []
  }

  /** Opening the editor as chitradrishya.py:807-809 writes it: the file is
      read twice, and the second read of a stream already at its end yields
      no bytes, so the "original" is empty. */
  function OpenPreviewsAsWritten(files: seq<UploadedFile>): (e: Session)
    ensures |e.previews| == |files| && WellFormed(e)
    ensures forall i :: 0 <= i < |files| ==>
              e.previews[i] == Preview(files[i].name, files[i].content, [])
    ensures forall i :: 0 <= i < |files| ==> e.history[files[i].name] == []
  {
    Session(seq(|files|, i requires 0 <= i < |files| => Preview(files[i].name, files[i].content, [])),
            FreshHistory(files))
  }

  /** Opening the editor as evidently intended: the original is the
      uploaded content, as the "Original" pane and the reset button assume. */
  function OpenPreviews(files: seq<UploadedFile>): (e: Session)
    ensures |e.previews| == |files| && WellFormed(e)
    ensures forall i :: 0 <= i < |files| ==>
              e.previews[i] == Preview(files[i].name, files[i].content, files[i].content)
    ensures forall i :: 0 <= i < |files| ==> e.history[files[i].name] == []
  {
    Session(seq(|files|, i requires 0 <= i < |files| => Preview(files[i].name, files[i].content, files[i].content)),
            FreshHistory(files))
  }

  /** "Save Edits" (chitradrishya.py:998-1014): when the edit produced
      bytes, the shown bytes go on the file's stack and the edit is shown;
      otherwise nothing changes. Only preview `i` and its name's stack are
      touched. */
  function Save(e: Session, i: nat, edited: Option<Blob>): (r: Session)
    requires WellFormed(e) && i < |e.previews|
    ensures WellFormed(r) && |r.previews| == |e.previews|
    ensures forall j :: 0 <= j < |e.previews| && j != i ==> r.previews[j] == e.previews[j]
    ensures !Produced(edited) ==> r == e
    ensures Produced(edited) ==>
              && r.previews[i] == e.previews[i].(data := edited.value)
              && r.history == e.history[e.previews[i].name := e.history[e.previews[i].name] + [e.previews[i].data]]
  {
    var p := e.previews[i];
    if Produced(edited) then
      Session(e.previews[i := p.(data := edited.value)], e.history[p.name := e.history[p.name] + [p.data]])
    else e
  }

  /** "Undo Edit" (chitradrishya.py:1017-1024): the top of the file's
      stack becomes the shown bytes and is popped; with an empty stack
      nothing changes (an error is reported). */
  function Undo(e: Session, i: nat): (r: Session)
    requires WellFormed(e) && i < |e.previews|
    ensures WellFormed(r) && |r.previews| == |e.previews|
    ensures forall j :: 0 <= j < |e.previews| && j != i ==> r.previews[j] == e.previews[j]
    ensures var stack := e.history[e.previews[i].name];
            && (stack == [] ==> r == e)
            && (stack != [] ==>
                  && r.previews[i] == e.previews[i].(data := stack[|stack| - 1])
                  && r.history == e.history[e.previews[i].name := stack[..|stack| - 1]])
  {
    var p := e.previews[i];
    var stack := e.history[p.name];
    if |stack| > 0 then
      Session(e.previews[i := p.(data := stack[|stack| - 1])], e.history[p.name := stack[..|stack| - 1]])
    else e
  }

  /** "Reset Photo" (chitradrishya.py:1026-1032): the original is shown
      again and the file's stack is emptied. */
  function Reset(e: Session, i: nat): (r: Session)
    requires WellFormed(e) && i < |e.previews|
    ensures WellFormed(r) && |r.previews| == |e.previews|
    ensures forall j :: 0 <= j < |e.previews| && j != i ==> r.previews[j] == e.previews[j]
    ensures r.previews[i] == e.previews[i].(data := e.previews[i].original)
    ensures r.history == e.history[e.previews[i].name := []]
  {
    var p := e.previews[i];
    Session(e.previews[i := p.(data := p.original)], e.history[p.name := []])
  }

  /** The bytes "Save All Photos" hands to `load_images_to_db`
      (chitradrishya.py:1047-1050), one per preview in order. */
  function Shown(e: Session): (r: seq<Blob>)
    ensures |r| == |e.previews|
    ensures forall i :: 0 <= i < |e.previews| ==> r[i] == e.previews[i].data
  {
    seq(|e.previews|, i requires 0 <= i < |e.previews| => e.previews[i].data)
  }

  /** "Save All Photos": the shown bytes of every preview are uploaded. Every
      new row is in the chosen folder with the chosen flag and holds the
      bytes some preview shows; nothing but the images changes. */
  function SaveAllPhotos(s: Store, e: Session, folder: string, download: bool, uuids: seq<string>): (r: Store)
    requires |uuids| == |e.previews|
    ensures folder !in Slugs(s.folders) ==> r == s
    ensures r.(images := s.images, nextImageId := s.nextImageId) == s
    ensures s.images <= r.images && |r.images| <= |s.images| + |e.previews|
    ensures forall i :: |s.images| <= i < |r.images| ==>
              && r.images[i].folder == folder
              && r.images[i].download == download
              && r.images[i].data in Shown(e)
  {
    LoadImagesToDb(s, Shown(e), folder, download, uuids)
  }

  // ---------------------------------------------------------------------
  // the stack discipline
  // ---------------------------------------------------------------------

  /** Undo right after a productive save restores the whole session. */
  lemma SaveThenUndo(e: Session, i: nat, edited: Option<Blob>)
    requires WellFormed(e) && i < |e.previews| && Produced(edited)
    ensures Undo(Save(e, i, edited), i) == e
  {
    var p := e.previews[i];
    var stack := e.history[p.name];
    assert (stack + [p.data])[..|stack|] == stack;
    assert e.previews[i := p] == e.previews;
    assert e.history[p.name := stack] == e.history;
  }

  /** Undo with nothing saved for that name changes nothing. */
  lemma UndoEmptyStack(e: Session, i: nat)
    requires WellFormed(e) && i < |e.previews|
    requires e.history[e.previews[i].name] == []
    ensures Undo(e, i) == e
  {
  }

  /** A run of productive edits of preview `i`, in order. */
  function SaveMany(e: Session, i: nat, edits: seq<Blob>): (r: Session)
    requires WellFormed(e) && i < |e.previews|
    requires forall k :: 0 <= k < |edits| ==> |edits[k]| > 0
    ensures WellFormed(r) && |r.previews| == |e.previews|
    ensures r.previews[i].name == e.previews[i].name
    decreases |edits|
  {
    if |edits| == 0 then e
    else Save(SaveMany(e, i, edits[..|edits| - 1]), i, Some(edits[|edits| - 1]))
  }

  /** `n` presses of "Undo Edit" on preview `i`. */
  function UndoMany(e: Session, i: nat, n: nat): (r: Session)
    requires WellFormed(e) && i < |e.previews|
    ensures WellFormed(r) && |r.previews| == |e.previews|
    ensures r.previews[i].name == e.previews[i].name
    decreases n
  {
    if n == 0 then e else UndoMany(Undo(e, i), i, n - 1)
  }

  /** Undoing as many times as edits were saved walks all the way back. */
  lemma {:induction false} SaveManyThenUndoMany(e: Session, i: nat, edits: seq<Blob>)
    requires WellFormed(e) && i < |e.previews|
    requires forall k :: 0 <= k < |edits| ==> |edits[k]| > 0
    ensures UndoMany(SaveMany(e, i, edits), i, |edits|) == e
    decreases |edits|
  {
    if |edits| > 0 {
      var init := edits[..|edits| - 1];
      var mid := SaveMany(e, i, init);
      SaveThenUndo(mid, i, Some(edits[|edits| - 1]));
      SaveManyThenUndoMany(e, i, init);
    }
  }

  /** Reset forgets whatever was saved or undone before it. */
  lemma ResetAfterSave(e: Session, i: nat, edited: Option<Blob>)
    requires WellFormed(e) && i < |e.previews|
    ensures Reset(Save(e, i, edited), i) == Reset(e, i)
  {
    var p := e.previews[i];
    assert e.previews[i := p.(data := p.original)] ==
           e.previews[i := p.(data := p.original)][i := p.(data := p.original)];
  }

  lemma ResetAfterUndo(e: Session, i: nat)
    requires WellFormed(e) && i < |e.previews|
    ensures Reset(Undo(e, i), i) == Reset(e, i)
  {
  }

  lemma ResetIdempotent(e: Session, i: nat)
    requires WellFormed(e) && i < |e.previews|
    ensures Reset(Reset(e, i), i) == Reset(e, i)
  {
  }

  /** After a reset there is nothing left to undo. */
  lemma UndoAfterReset(e: Session, i: nat)
    requires WellFormed(e) && i < |e.previews|
    ensures Undo(Reset(e, i), i) == Reset(e, i)
  {
  }

  /** Two previews with the same file name share one stack: undo on the
      second shows the bytes the first had before its edit. */
  lemma SharedStackBetweenNamesakes(e: Session, i: nat, j: nat, edited: Option<Blob>)
    requires WellFormed(e) && i < |e.previews| && j < |e.previews| && i != j
    requires e.previews[i].name == e.previews[j].name && Produced(edited)
    ensures Undo(Save(e, i, edited), j).previews[j].data == e.previews[i].data
    ensures Undo(Save(e, i, edited), j).previews[i].data == edited.value
  {
  }

  // ---------------------------------------------------------------------
  // the original bytes
  // ---------------------------------------------------------------------

  /** As written, reset shows empty bytes whatever was uploaded; the page
      that reruns after it then opens those empty bytes as an image
      (chitradrishya.py:945), which fails. */
  lemma ResetAfterOpenAsWritten(files: seq<UploadedFile>, i: nat)
    requires i < |files|
    ensures Reset(OpenPreviewsAsWritten(files), i).previews[i].data == []
    ensures |files[i].content| > 0 ==> Reset(OpenPreviewsAsWritten(files), i).previews[i].data != files[i].content
  {
  }

  /** A concrete upload that shows it: a one-byte file comes back empty. */
  lemma ResetAsWrittenLosesBytes()
    ensures var files := [UploadedFile("a.png", Some("image/png"), [0x89])];
            Reset(OpenPreviewsAsWritten(files), 0).previews[0].data == []
  {
    var files := [UploadedFile("a.png", Some("image/png"), [0x89])];
    ResetAfterOpenAsWritten(files, 0);
  }

  /** With the intended opening, reset brings back the uploaded bytes after
      any edits, and leaves nothing to undo. */
  lemma {:induction false} ResetRestoresUpload(files: seq<UploadedFile>, i: nat, edits: seq<Blob>)
    requires i < |files|
    requires forall k :: 0 <= k < |edits| ==> |edits[k]| > 0
    ensures var e := SaveMany(OpenPreviews(files), i, edits);
            && Reset(e, i).previews[i].data == files[i].content
            && Undo(Reset(e, i), i) == Reset(e, i)
  {
    OriginalsKept(OpenPreviews(files), i, edits);
  }

  /** Saving edits never changes the original bytes. */
  lemma {:induction false} OriginalsKept(e: Session, i: nat, edits: seq<Blob>)
    requires WellFormed(e) && i < |e.previews|
    requires forall k :: 0 <= k < |edits| ==> |edits[k]| > 0
    ensures SaveMany(e, i, edits).previews[i].original == e.previews[i].original
    decreases |edits|
  {
    if |edits| > 0 {
      OriginalsKept(e, i, edits[..|edits| - 1]);
    }
  }

  /** Saving all photos of any session, with fresh UUIDs into an existing
      folder, adds one row per preview, in order, holding the bytes that
      preview shows, under the next ids. */
  lemma SaveAllPhotosStoresShown(s: Store, e: Session, folder: string, download: bool, uuids: seq<string>)
    requires |uuids| == |e.previews|
    requires folder in Slugs(s.folders)
    requires forall i, j :: 0 <= i < j < |uuids| ==> uuids[i] != uuids[j]
    requires forall i :: 0 <= i < |uuids| ==> !NameTaken(s.images, folder, ImageFileName(uuids[i]))
    ensures var r := SaveAllPhotos(s, e, folder, download, uuids);
            && r.images[..|s.images|] == s.images
            && |r.images| == |s.images| + |e.previews|
            && r.nextImageId == s.nextImageId + |e.previews|
            && forall k :: 0 <= k < |e.previews| ==>
                 r.images[|s.images| + k] == Image(s.nextImageId + k, ImageFileName(uuids[k]), folder, e.previews[k].data, download)
  {
    LoadImagesFresh(s, Shown(e), folder, download, uuids);
  }

  /** Saving all photos of an untouched session uploads exactly the files
      as they arrived, in order. */
  lemma UntouchedUpload(s: Store, files: seq<UploadedFile>, folder: string, download: bool, uuids: seq<string>)
    requires |uuids| == |files|
    requires folder in Slugs(s.folders)
    requires forall i, j :: 0 <= i < j < |uuids| ==> uuids[i] != uuids[j]
    requires forall i :: 0 <= i < |uuids| ==> !NameTaken(s.images, folder, ImageFileName(uuids[i]))
    ensures var r := SaveAllPhotos(s, OpenPreviews(files), folder, download, uuids);
            && |r.images| == |s.images| + |files|
            && forall k :: 0 <= k < |files| ==> r.images[|s.images| + k].data == files[k].content
  {
    LoadImagesFresh(s, Shown(OpenPreviews(files)), folder, download, uuids);
  }
}

=== FILE: history.dfy ===
/** The database side of single-step undo for photos already in the
    gallery: `get_image_id`, `save_image_history`, `undo_image_edit`, and the
    "Save Edits" button of the zoom view, which snapshots the current bytes
    before overwriting them. Snapshots form a stack per image, ordered by
    their ISO timestamps; undo pops the newest one. */
module ImageHistory {
  import opened Common
  import opened Database

  /** Position of the first row with that folder and name, if any. */
  function FirstNamed(images: seq<Image>, folder: string, name: string): (r: Option<nat>)
    ensures r.None? <==> !NameTaken(images, folder, name)
    ensures r.Some? ==> r.value < |images| && Named(images[r.value], folder, name)
    ensures r.Some? ==> forall j :: 0 <= j < r.value ==> !Named(images[j], folder, name)
  {
    if |images| == 0 then None
    else if Named(images[0], folder, name) then Some(0)
    else
      var rest := FirstNamed(images[1..], folder, name);
      assert NameTaken(images, folder, name) ==> NameTaken(images[1..], folder, name) by {
        if NameTaken(images, folder, name) {
          var i :| 0 <= i < |images| && Named(images[i], folder, name);
          assert images[1..][i - 1] == images[i];
        }
      }
      if rest.None? then None else Some(rest.value + 1)
  }

  /** `get_image_id` (chitradrishya.py:303-310): the id of the first image
      row with that folder and name, or None. */
  function GetImageId(s: Store, folder: string, name: string): (r: Option<nat>)
    ensures r.None? <==> !NameTaken(s.images, folder, name)
    ensures r.Some? ==> exists i :: 0 <= i < |s.images| && Named(s.images[i], folder, name) && s.images[i].id == r.value
  {
    var k := FirstNamed(s.images, folder, name);
    if k.None? then None else Some(s.images[k.value].id)
  }

  /** In a valid store the (folder, name) pair picks one row, and
      `get_image_id` returns its id, which is never the falsy 0. */
  lemma GetImageIdOfRow(s: Store, i: nat)
    requires Valid(s) && i < |s.images|
    ensures GetImageId(s, s.images[i].folder, s.images[i].name) == Some(s.images[i].id)
    ensures s.images[i].id != 0
  {
    var img := s.images[i];
    var k := FirstNamed(s.images, img.folder, img.name);
    assert Named(s.images[i], img.folder, img.name);
  }

  /** `save_image_history` (chitradrishya.py:287-296): a snapshot row is
      appended under the caller's clock reading `now`. The image id is not
      checked against `images`. */
  function SaveImageHistory(s: Store, imageId: nat, folder: string, data: Blob, now: string): (r: Store)
    ensures r.(history := s.history) == s
    ensures |r.history| == |s.history| + 1 && r.history[..|s.history|] == s.history
    ensures r.history[|s.history|] == Snapshot(imageId, folder, data, now)
  {
    s.(history := s.history + [Snapshot(imageId, folder, data, now)])
  }

  /** The row `ORDER BY timestamp DESC LIMIT 1` returns among the snapshots
      of one image: one with the greatest timestamp; of several such, the
      earliest row. */
  function Newest(h: seq<Snapshot>, id: nat): (r: Option<nat>)
    ensures r.None? <==> forall j :: 0 <= j < |h| ==> h[j].imageId != id
    ensures r.Some? ==> r.value < |h| && h[r.value].imageId == id
    decreases |h|
  {
    if |h| == 0 then None
    else
      var prev := Newest(h[..|h| - 1], id);
      assert forall j :: 0 <= j < |h| - 1 ==> h[..|h| - 1][j] == h[j];
      if h[|h| - 1].imageId != id then prev
      else if prev.None? || LexLt(h[prev.value].timestamp, h[|h| - 1].timestamp) then Some(|h| - 1)
      else prev
  }

  /** The snapshot `Newest` picks is at least as late as every snapshot of
      that image, and strictly later than every earlier row of it. */
  lemma {:induction false} NewestIsLatest(h: seq<Snapshot>, id: nat)
    ensures var r := Newest(h, id);
            r.Some? ==>
              && (forall j :: 0 <= j < |h| && h[j].imageId == id ==> LexLe(h[j].timestamp, h[r.value].timestamp))
              && (forall j :: 0 <= j < r.value && h[j].imageId == id ==> LexLt(h[j].timestamp, h[r.value].timestamp))
    decreases |h|
  {
    if |h| > 0 {
      var h' := h[..|h| - 1];
      var last := h[|h| - 1];
      var p := Newest(h', id);
      NewestIsLatest(h', id);
      assert forall j :: 0 <= j < |h'| ==> h'[j] == h[j];
      var r := Newest(h, id);
      if last.imageId != id {
        assert r == p;
      } else if p.None? {
        assert r == Some(|h| - 1);
        LexLeReflexive(last.timestamp);
      } else if LexLt(h[p.value].timestamp, last.timestamp) {
        assert r == Some(|h| - 1);
        var top := h[p.value].timestamp;
        forall j | 0 <= j < |h| && h[j].imageId == id
          ensures LexLe(h[j].timestamp, last.timestamp)
        {
          if j < |h| - 1 {
            LexLeTransitive(h[j].timestamp, top, last.timestamp);
          } else {
            LexLeReflexive(last.timestamp);
          }
        }
        forall j | 0 <= j < |h| - 1 && h[j].imageId == id
          ensures LexLt(h[j].timestamp, last.timestamp)
        {
          if h[j].timestamp == last.timestamp {
            LexLeAntisymmetric(top, last.timestamp);
          }
        }
      } else {
        assert r == p;
        LexNotLtIsLe(h[p.value].timestamp, last.timestamp);
      }
    }
  }

  /** Whether Python's `if not image_id` lets the undo go on: a missing id
      and the id 0 both stop it. */
  predicate UsableId(id: Option<nat>)
  {
    id.Some? && id.value != 0
  }

  /** The snapshot rows that survive `DELETE FROM image_history WHERE
      image_id = ? AND timestamp = ?`. */
  function DropSnapshots(h: seq<Snapshot>, id: nat, timestamp: string): (r: seq<Snapshot>)
    ensures forall x :: x in r <==> x in h && !(x.imageId == id && x.timestamp == timestamp)
    ensures forall x :: multiset(r)[x] ==
              if x.imageId == id && x.timestamp == timestamp then 0 else multiset(h)[x]
  {
    var keep := (x: Snapshot) => !(x.imageId == id && x.timestamp == timestamp);
    FilterCounts(keep, h);
    Filter(keep, h)
  }

  /** `undo_image_edit` (chitradrishya.py:315-336). Without a usable image
      id or without any snapshot of it the answer is False and nothing
      changes. Otherwise the newest snapshot's bytes are written back to the
      image, every snapshot of that image carrying that timestamp is
      deleted, and the answer is True. */
  function UndoImageEdit(s: Store, folder: string, name: string): (r: Reply)
    ensures !UsableId(GetImageId(s, folder, name)) ==> r == Reply(false, s)
    ensures UsableId(GetImageId(s, folder, name)) ==>
              var id := GetImageId(s, folder, name).value;
              && (r.ok <==> exists j :: 0 <= j < |s.history| && s.history[j].imageId == id)
              && (!r.ok ==> r.store == s)
              && (r.ok ==> exists k ::
                    && 0 <= k < |s.history| && s.history[k].imageId == id
                    && (forall j :: 0 <= j < |s.history| && s.history[j].imageId == id ==>
                          LexLe(s.history[j].timestamp, s.history[k].timestamp))
                    && r.store.images == SwapImage(s, folder, name, s.history[k].data).images
                    && r.store.history == DropSnapshots(s.history, id, s.history[k].timestamp))
    ensures r.store.folders == s.folders && r.store.surveys == s.surveys && r.store.nextImageId == s.nextImageId
  {
    var id := GetImageId(s, folder, name);
    if !UsableId(id) then Reply(false, s)
    else
      var newest := Newest(s.history, id.value);
      NewestIsLatest(s.history, id.value);
      if newest.None? then Reply(false, s)
      else
        var snap := s.history[newest.value];
        var s1 := SwapImage(s, folder, name, snap.data);
        Reply(true, s1.(history := DropSnapshots(s.history, id.value, snap.timestamp)))
  }

  /** Undo never breaks the store invariant. */
  lemma UndoImageEditPreservesValid(s: Store, folder: string, name: string)
    requires Valid(s)
    ensures Valid(UndoImageEdit(s, folder, name).store)
  {
    var r := UndoImageEdit(s, folder, name);
    if r.ok {
      var id := GetImageId(s, folder, name);
      var k := Newest(s.history, id.value).value;
      var snap := s.history[k];
      SwapImagePreservesValid(s, folder, name, snap.data);
      assert r.store == SwapImage(s, folder, name, snap.data).(history := r.store.history);
    }
  }

  /** The "Save Edits" button of the zoom view (chitradrishya.py:1127-1152):
      the bytes on screen (`shown`) are first saved as a snapshot when the
      image id is usable, then the edited bytes, if the imaging library
      produced any non-empty result, replace the image's bytes with the same
      UPDATE `swap_image` issues. Cropping and rotating are foreign calls;
      their result is the parameter `edited`. */
  function ZoomSaveEdits(s: Store, folder: string, name: string, shown: Blob, edited: Option<Blob>, now: string): (r: Store)
    ensures r.folders == s.folders && r.surveys == s.surveys && r.nextImageId == s.nextImageId
    ensures UsableId(GetImageId(s, folder, name)) ==>
              r.history == s.history + [Snapshot(GetImageId(s, folder, name).value, folder, shown, now)]
    ensures !UsableId(GetImageId(s, folder, name)) ==> r.history == s.history
    ensures edited.Some? && |edited.value| > 0 ==> r.images == SwapImage(s, folder, name, edited.value).images
    ensures !(edited.Some? && |edited.value| > 0) ==> r.images == s.images
  {
    var id := GetImageId(s, folder, name);
    var s1 := if UsableId(id) then SaveImageHistory(s, id.value, folder, shown, now) else s;
    if edited.Some? && |edited.value| > 0 then SwapImage(s1, folder, name, edited.value) else s1
  }

  lemma ZoomSaveEditsPreservesValid(s: Store, folder: string, name: string, shown: Blob, edited: Option<Blob>, now: string)
    requires Valid(s)
    ensures Valid(ZoomSaveEdits(s, folder, name, shown, edited, now))
  {
    var r := ZoomSaveEdits(s, folder, name, shown, edited, now);
    if edited.Some? && |edited.value| > 0 {
      SwapImagePreservesValid(s, folder, name, edited.value);
      assert r == SwapImage(s, folder, name, edited.value).(history := r.history);
    } else {
      assert r == s.(history := r.history);
    }
  }

  /** Every snapshot of image `id` is older than `now`: the clock has moved
      on since the last edit. */
  predicate OlderThan(h: seq<Snapshot>, id: nat, now: string)
  {
    forall j :: 0 <= j < |h| && h[j].imageId == id ==> LexLt(h[j].timestamp, now)
  }

  /** A snapshot stamped later than all others of its image is the one
      `Newest` picks. */
  lemma NewestIsLastPushed(h: seq<Snapshot>, snap: Snapshot)
    requires OlderThan(h, snap.imageId, snap.timestamp)
    ensures Newest(h + [snap], snap.imageId) == Some(|h|)
  {
    var h2 := h + [snap];
    var n := Newest(h2, snap.imageId);
    NewestIsLatest(h2, snap.imageId);
    if n.value < |h| {
      assert h2[n.value] == h[n.value];
      assert LexLt(h2[n.value].timestamp, snap.timestamp);
      assert LexLe(snap.timestamp, h2[n.value].timestamp);
      LexLeAntisymmetric(h2[n.value].timestamp, snap.timestamp);
    }
  }

  /** Deleting by the newest snapshot's image id and timestamp removes just
      that snapshot when all others of the image are older. */
  lemma DropLastPushed(h: seq<Snapshot>, snap: Snapshot)
    requires OlderThan(h, snap.imageId, snap.timestamp)
    ensures DropSnapshots(h + [snap], snap.imageId, snap.timestamp) == h
  {
    var keep := (x: Snapshot) => !(x.imageId == snap.imageId && x.timestamp == snap.timestamp);
    FilterSnoc(keep, h, snap);
    forall j | 0 <= j < |h|
      ensures keep(h[j])
    {
      if h[j].imageId == snap.imageId {
        assert LexLt(h[j].timestamp, snap.timestamp);
      }
    }
    FilterAll(keep, h);
  }

  /** After the zoom edit the image rows keep their ids, folders and
      names, so the store stays valid and row `i` keeps its id. */
  lemma ZoomEditKeepsRow(s: Store, i: nat, edited: Option<Blob>, now: string)
    requires Valid(s) && i < |s.images|
    ensures var img := s.images[i];
            var s2 := ZoomSaveEdits(s, img.folder, img.name, img.data, edited, now);
            && Valid(s2)
            && GetImageId(s2, img.folder, img.name) == Some(img.id)
            && s2.history == s.history + [Snapshot(img.id, img.folder, img.data, now)]
  {
    var img := s.images[i];
    GetImageIdOfRow(s, i);
    var s2 := ZoomSaveEdits(s, img.folder, img.name, img.data, edited, now);
    ZoomSaveEditsPreservesValid(s, img.folder, img.name, img.data, edited, now);
    assert s2.images[i].id == img.id && s2.images[i].folder == img.folder && s2.images[i].name == img.name;
    GetImageIdOfRow(s2, i);
  }

  /** Writing the shown bytes back after the zoom edit restores the image
      rows. */
  lemma ZoomEditSwapBack(s: Store, i: nat, edited: Option<Blob>, now: string)
    requires Valid(s) && i < |s.images|
    ensures var img := s.images[i];
            var s2 := ZoomSaveEdits(s, img.folder, img.name, img.data, edited, now);
            SwapImage(s2, img.folder, img.name, img.data).images == s.images
  {
    var img := s.images[i];
    var s2 := ZoomSaveEdits(s, img.folder, img.name, img.data, edited, now);
    var t := s2.(history := s.history);
    assert SwapImage(s2, img.folder, img.name, img.data).images == SwapImage(t, img.folder, img.name, img.data).images;
    if edited.Some? && |edited.value| > 0 {
      assert t == SwapImage(s, img.folder, img.name, edited.value);
      SwapImageUndo(s, i, edited.value);
    } else {
      assert t == s;
      SwapImageSame(s, i);
    }
  }

  /** An edit saved from the zoom view followed by "Undo Edit" restores the
      store exactly, provided the shown bytes are the stored ones and the
      edit's timestamp is later than every earlier snapshot of that image. */
  lemma EditThenUndo(s: Store, i: nat, edited: Option<Blob>, now: string)
    requires Valid(s) && i < |s.images|
    requires OlderThan(s.history, s.images[i].id, now)
    ensures var img := s.images[i];
            UndoImageEdit(ZoomSaveEdits(s, img.folder, img.name, img.data, edited, now), img.folder, img.name)
              == Reply(true, s)
  {
    var img := s.images[i];
    var snap := Snapshot(img.id, img.folder, img.data, now);
    var s2 := ZoomSaveEdits(s, img.folder, img.name, img.data, edited, now);
    ZoomEditKeepsRow(s, i, edited, now);
    ZoomEditSwapBack(s, i, edited, now);
    GetImageIdOfRow(s, i);
    NewestIsLastPushed(s.history, snap);
    DropLastPushed(s.history, snap);
    var r := UndoImageEdit(s2, img.folder, img.name);
    assert r.store.images == s.images;
    assert r.store.history == s.history;
  }

  /** Two edits undone one after the other come off in reverse order: the
      snapshots behave as a stack. */
  lemma TwoEditsUndoneInOrder(s: Store, i: nat, e1: Option<Blob>, t1: string, e2: Option<Blob>, t2: string)
    requires Valid(s) && i < |s.images|
    requires OlderThan(s.history, s.images[i].id, t1)
    requires LexLt(t1, t2) && OlderThan(s.history, s.images[i].id, t2)
    ensures var img := s.images[i];
            var s1 := ZoomSaveEdits(s, img.folder, img.name, img.data, e1, t1);
            var s2 := ZoomSaveEdits(s1, img.folder, img.name, s1.images[i].data, e2, t2);
            var u1 := UndoImageEdit(s2, img.folder, img.name);
            && u1 == Reply(true, s1)
            && UndoImageEdit(u1.store, img.folder, img.name) == Reply(true, s)
  {
    var img := s.images[i];
    var s1 := ZoomSaveEdits(s, img.folder, img.name, img.data, e1, t1);
    ZoomSaveEditsPreservesValid(s, img.folder, img.name, img.data, e1, t1);
    GetImageIdOfRow(s, i);
    assert s1.history == s.history + [Snapshot(img.id, img.folder, img.data, t1)];
    assert |s1.images| == |s.images|;
    assert s1.images[i].id == img.id && s1.images[i].folder == img.folder && s1.images[i].name == img.name;
    assert OlderThan(s1.history, img.id, t2);
    EditThenUndo(s1, i, e2, t2);
    EditThenUndo(s, i, e1, t1);
  }
}

=== FILE: slug.dfy ===
/** The folder-slug check `validate_folder_name`: Python's `re.match` with
    the pattern `^[a-z0-9_]{3,20}$`. The matcher is modelled operationally
    (greedy repetition, then backtracking to find a place where `$` holds)
    and then characterised declaratively. Python's `$` also matches just
    before a single newline that ends the text, so one trailing "\n" is
    accepted. */
module Slug {

  const MinLen: nat := 3
  const MaxLen: nat := 20

  /** One character of the class `[a-z0-9_]`. */
  predicate SlugChar(c: char)
  {
    ('a' <= c <= 'z') || ('0' <= c <= '9') || c == '_'
  }

  predicate AllSlugChars(t: string)
  {
    forall i :: 0 <= i < |t| ==> SlugChar(t[i])
  }

  /** What the slug rules describe: 3 to 20 characters from `[a-z0-9_]`. */
  predicate WellFormedSlug(t: string)
  {
    MinLen <= |t| <= MaxLen && AllSlugChars(t)
  }

  /** How many characters the greedy `{3,20}` repetition takes from the
      start of `s`: the run of class characters, stopped after `cap`. */
  function Run(s: string, cap: nat): (k: nat)
    ensures k <= cap && k <= |s|
    ensures forall i :: 0 <= i < k ==> SlugChar(s[i])
    ensures k == cap || k == |s| || !SlugChar(s[k])
  {
    if |s| == 0 || cap == 0 || !SlugChar(s[0]) then 0
    else 1 + Run(s[1..], cap - 1)
  }

  /** Python's `$` without MULTILINE: at the very end, or just before a
      newline that is the last character. */
  predicate DollarAt(s: string, k: nat)
  {
    k == |s| || (k + 1 == |s| && s[k] == '\n')
  }

  /** The repetition gives back one character at a time, down to the
      minimum of three, until `$` matches. */
  predicate Backtrack(s: string, k: nat)
    requires MinLen <= k
    decreases k
  {
    DollarAt(s, k) || (k > MinLen && Backtrack(s, k - 1))
  }

  /** `validate_folder_name` as written (chitradrishya.py:45-48). */
  predicate ValidateFolderName(s: string)
  {
    var k := Run(s, MaxLen);
    MinLen <= k && Backtrack(s, k)
  }

  /** Backtracking from `k` succeeds exactly when `$` holds at some stop
      between the minimum and `k`. */
  lemma {:induction false} BacktrackWitness(s: string, k: nat) returns (j: nat)
    requires MinLen <= k && Backtrack(s, k)
    ensures MinLen <= j <= k && DollarAt(s, j)
  {
    if DollarAt(s, k) {
      j := k;
    } else {
      j := BacktrackWitness(s, k - 1);
    }
  }

  lemma {:induction false} BacktrackFinds(s: string, k: nat, j: nat)
    requires MinLen <= j <= k && DollarAt(s, j)
    ensures Backtrack(s, k)
    decreases k
  {
    if j < k {
      BacktrackFinds(s, k - 1, j);
    }
  }

  /** The slug check accepts exactly a well-formed slug, optionally
      followed by one newline. */
  lemma ValidateFolderNameSpec(s: string)
    ensures ValidateFolderName(s) <==>
      (WellFormedSlug(s) || (|s| > 0 && s[|s| - 1] == '\n' && WellFormedSlug(s[..|s| - 1])))
  {
    var k := Run(s, MaxLen);
    if ValidateFolderName(s) {
      var j := BacktrackWitness(s, k);
      if j == |s| {
        assert WellFormedSlug(s);
      } else {
        assert s[..|s| - 1] == s[..j];
        assert WellFormedSlug(s[..|s| - 1]);
      }
    } else if WellFormedSlug(s) {
      assert k == |s|;
      BacktrackFinds(s, k, k);
      assert false;
    } else if |s| > 0 && s[|s| - 1] == '\n' && WellFormedSlug(s[..|s| - 1]) {
      var t := s[..|s| - 1];
      assert forall i :: 0 <= i < |t| ==> s[i] == t[i];
      assert k == |s| - 1;
      BacktrackFinds(s, k, k);
      assert false;
    }
  }

  /** A well-formed slug passes, and so does the same slug with one
      trailing newline; two newlines never pass. */
  lemma TrailingNewline(t: string)
    requires WellFormedSlug(t)
    ensures ValidateFolderName(t)
    ensures ValidateFolderName(t + "\n")
    ensures !ValidateFolderName(t + "\n\n")
  {
    ValidateFolderNameSpec(t);
    var u := t + "\n";
    assert u[..|u| - 1] == t;
    ValidateFolderNameSpec(u);
    var v := t + "\n\n";
    ValidateFolderNameSpec(v);
    assert v[|v| - 2] == '\n';
    assert !AllSlugChars(v[..|v| - 1]) by {
      assert v[..|v| - 1][|v| - 2] == '\n';
    }
  }

  /** Any character outside the class (an upper-case letter, a dash, a
      space) anywhere but a final newline makes the slug invalid. */
  lemma ForeignCharRejected(s: string, i: nat)
    requires i < |s| && !SlugChar(s[i])
    requires !(i == |s| - 1 && s[i] == '\n')
    ensures !ValidateFolderName(s)
  {
    ValidateFolderNameSpec(s);
    if |s| > 0 && s[|s| - 1] == '\n' {
      assert s[..|s| - 1][i] == s[i];
    }
  }
}

=== FILE: surveys.dfy ===
/** `load_survey_data`: the survey table read into a dictionary from folder
    slug to that folder's entries. A Python dict remembers the order its
    keys were first inserted; that order is returned as `keys`. */
module SurveyReport {
  import opened Database

  /** One entry of a folder's list: the survey row without its folder. */
  datatype Entry = Entry(rating: int, feedback: string, timestamp: string)

  function EntryOf(x: Survey): Entry
  {
    Entry(x.rating, x.feedback, x.timestamp)
  }

  /** The entries of folder `k`, in row order. */
  function Group(rows: seq<Survey>, k: string): seq<Entry>
    decreases |rows|
  {
    if |rows| == 0 then []
    else
      var last := rows[|rows| - 1];
      Group(rows[..|rows| - 1], k) + (if last.folder == k then [EntryOf(last)] else [])
  }

  /** The index of the first row of folder `k`, or the number of rows when
      there is none. */
  function FirstSeen(rows: seq<Survey>, k: string): (r: nat)
    ensures r <= |rows|
    ensures forall m :: 0 <= m < r ==> rows[m].folder != k
    ensures r < |rows| ==> rows[r].folder == k
  {
    if |rows| == 0 then 0
    else if rows[0].folder == k then 0
    else 1 + FirstSeen(rows[1..], k)
  }

  /** The sum of the sizes of the groups listed in `keys`. */
  function TotalSize(groups: map<string, seq<Entry>>, keys: seq<string>): nat
    requires forall j :: 0 <= j < |keys| ==> keys[j] in groups
    decreases |keys|
  {
    if |keys| == 0 then 0
    else TotalSize(groups, keys[..|keys| - 1]) + |groups[keys[|keys| - 1]]|
  }

  predicate Distinct(keys: seq<string>)
  {
    forall i, j :: 0 <= i < j < |keys| ==> keys[i] != keys[j]
  }

  /** Groups that agree on the listed keys have the same total size. */
  lemma {:induction false} TotalSizeFrame(g1: map<string, seq<Entry>>, g2: map<string, seq<Entry>>, keys: seq<string>)
    requires forall j :: 0 <= j < |keys| ==> keys[j] in g1 && keys[j] in g2 && g1[keys[j]] == g2[keys[j]]
    ensures TotalSize(g1, keys) == TotalSize(g2, keys)
    decreases |keys|
  {
    if |keys| > 0 {
      TotalSizeFrame(g1, g2, keys[..|keys| - 1]);
    }
  }

  /** Appending one entry to a group listed once raises the total by one. */
  lemma {:induction false} TotalSizeBump(g: map<string, seq<Entry>>, keys: seq<string>, k: string, e: Entry)
    requires forall j :: 0 <= j < |keys| ==> keys[j] in g
    requires Distinct(keys) && k in keys
    ensures forall j :: 0 <= j < |keys| ==> keys[j] in g[k := g[k] + [e]]
    ensures TotalSize(g[k := g[k] + [e]], keys) == TotalSize(g, keys) + 1
    decreases |keys|
  {
    var g2 := g[k := g[k] + [e]];
    var init := keys[..|keys| - 1];
    if keys[|keys| - 1] == k {
      assert k !in init;
      TotalSizeFrame(g, g2, init);
    } else {
      assert k in init by {
        var m :| 0 <= m < |keys| && keys[m] == k;
        assert init[m] == k;
      }
      TotalSizeBump(g, init, k, e);
    }
  }

  /** A new key with an empty group leaves the total unchanged. */
  lemma TotalSizeNewKey(g: map<string, seq<Entry>>, keys: seq<string>, k: string)
    requires forall j :: 0 <= j < |keys| ==> keys[j] in g
    requires k !in keys
    ensures forall j :: 0 <= j < |keys + [k]| ==> (keys + [k])[j] in g[k := []]
    ensures TotalSize(g[k := []], keys + [k]) == TotalSize(g, keys)
  {
    var keys2 := keys + [k];
    assert keys2[..|keys2| - 1] == keys;
    forall j | 0 <= j < |keys| ensures keys[j] != k {
      assert keys[j] in keys;
    }
    TotalSizeFrame(g, g[k := []], keys);
  }

  /** What the loop of `load_survey_data` has built after the first `n`
      rows: a key for each folder seen, that folder's entries so far under
      it, each key listed once, and `n` entries in all. */
  ghost predicate Grouped(rows: seq<Survey>, n: nat, groups: map<string, seq<Entry>>, keys: seq<string>)
    requires n <= |rows|
  {
    Collected(rows, n, groups) && Listed(groups, keys, n) && Ordered(rows, n, keys)
  }

  /** The keys are folders met in the first `n` rows, in the order their
      first rows come. */
  ghost predicate Ordered(rows: seq<Survey>, n: nat, keys: seq<string>)
  {
    && (forall j :: 0 <= j < |keys| ==> FirstSeen(rows, keys[j]) < n)
    && (forall i, j :: 0 <= i < j < |keys| ==> FirstSeen(rows, keys[i]) < FirstSeen(rows, keys[j]))
  }

  /** The groups hold, under each folder seen in the first `n` rows, that
      folder's entries among them. */
  ghost predicate Collected(rows: seq<Survey>, n: nat, groups: map<string, seq<Entry>>)
    requires n <= |rows|
  {
    && (forall k :: k in groups <==> exists m :: 0 <= m < n && rows[m].folder == k)
    && (forall k :: k in groups ==> groups[k] == Group(rows[..n], k))
  }

  /** The keys list every group once, and the groups hold `n` entries. */
  ghost predicate Listed(groups: map<string, seq<Entry>>, keys: seq<string>, n: nat)
  {
    && (forall j :: 0 <= j < |keys| ==> keys[j] in groups)
    && (forall k :: k in groups ==> k in keys)
    && Distinct(keys)
    && TotalSize(groups, keys) == n
  }

  /** One turn of the loop: create the folder's list on first sight, then
      append the row's entry. */
  function AddRow(groups: map<string, seq<Entry>>, keys: seq<string>, row: Survey): (map<string, seq<Entry>>, seq<string>)
  {
    var g1 := if row.folder !in groups then groups[row.folder := []] else groups;
    var k1 := if row.folder !in groups then keys + [row.folder] else keys;
    (g1[row.folder := g1[row.folder] + [EntryOf(row)]], k1)
  }

  /** A folder with no rows has an empty list. */
  lemma {:induction false} GroupAbsent(rows: seq<Survey>, k: string)
    requires forall m :: 0 <= m < |rows| ==> rows[m].folder != k
    ensures Group(rows, k) == []
    decreases |rows|
  {
    if |rows| > 0 {
      GroupAbsent(rows[..|rows| - 1], k);
    }
  }

  lemma GroupSnoc(rows: seq<Survey>, n: nat, k: string)
    requires n < |rows|
    ensures Group(rows[..n + 1], k) == Group(rows[..n], k) + (if rows[n].folder == k then [EntryOf(rows[n])] else [])
  {
    assert rows[..n + 1][..n] == rows[..n];
  }

  /** The lists after one turn are the lists of the first `n + 1` rows. */
  lemma StepGroups(rows: seq<Survey>, n: nat, groups: map<string, seq<Entry>>, keys: seq<string>)
    requires n < |rows| && Collected(rows, n, groups)
    ensures Collected(rows, n + 1, AddRow(groups, keys, rows[n]).0)
  {
    var k := rows[n].folder;
    var g2 := AddRow(groups, keys, rows[n]).0;
    assert g2.Keys == groups.Keys + {k};
    StepGroupsDomain(rows, n, groups, g2.Keys);
    forall x | x in g2 ensures g2[x] == Group(rows[..n + 1], x) {
      GroupSnoc(rows, n, x);
      if x == k && k !in groups {
        GroupAbsent(rows[..n], k);
      }
    }
  }

  /** The folders met in the first `n + 1` rows are those of the first `n`
      and that of row `n`. */
  lemma StepGroupsDomain(rows: seq<Survey>, n: nat, groups: map<string, seq<Entry>>, ks: set<string>)
    requires n < |rows|
    requires forall x :: x in groups <==> exists m :: 0 <= m < n && rows[m].folder == x
    requires ks == groups.Keys + {rows[n].folder}
    ensures forall x :: x in ks <==> exists m :: 0 <= m < n + 1 && rows[m].folder == x
  {
    forall x | x in ks ensures exists m :: 0 <= m < n + 1 && rows[m].folder == x {
      if x != rows[n].folder {
        var m :| 0 <= m < n && rows[m].folder == x;
      }
    }
  }

  /** The key list after one turn still lists every key once. */
  lemma StepKeys(groups: map<string, seq<Entry>>, keys: seq<string>, row: Survey, n: nat)
    requires Listed(groups, keys, n)
    ensures Listed(AddRow(groups, keys, row).0, AddRow(groups, keys, row).1, n + 1)
  {
    var k := row.folder;
    if k !in groups {
      ListedNewKey(groups, keys, k, n);
      ListedBump(groups[k := []], keys + [k], k, EntryOf(row), n);
    } else {
      ListedBump(groups, keys, k, EntryOf(row), n);
    }
  }

  /** A folder met for the first time gets an empty list and a key at the
      end of the key list. */
  lemma ListedNewKey(groups: map<string, seq<Entry>>, keys: seq<string>, k: string, n: nat)
    requires Listed(groups, keys, n) && k !in groups
    ensures Listed(groups[k := []], keys + [k], n)
  {
    assert k !in keys;
    TotalSizeNewKey(groups, keys, k);
    var keys2 := keys + [k];
    assert Distinct(keys2) by {
      forall i, j | 0 <= i < j < |keys2| ensures keys2[i] != keys2[j] {
        assert keys2[i] == keys[i];
        if j < |keys| {
          assert keys2[j] == keys[j];
        } else {
          assert keys[i] in keys;
        }
      }
    }
  }

  /** Appending an entry to a listed group adds one to the total. */
  lemma ListedBump(groups: map<string, seq<Entry>>, keys: seq<string>, k: string, x: Entry, n: nat)
    requires Listed(groups, keys, n) && k in groups
    ensures Listed(groups[k := groups[k] + [x]], keys, n + 1)
  {
    TotalSizeBump(groups, keys, k, x);
  }

  /** A key added by one turn is first seen at that row, after every key
      already listed; `isNew` says whether the turn adds the row's folder. */
  lemma StepOrder(rows: seq<Survey>, n: nat, keys: seq<string>, isNew: bool)
    requires n < |rows| && Ordered(rows, n, keys)
    requires isNew ==> forall m :: 0 <= m < n ==> rows[m].folder != rows[n].folder
    ensures Ordered(rows, n + 1, if isNew then keys + [rows[n].folder] else keys)
  {
    if isNew {
      FirstSeenAt(rows, rows[n].folder, n);
      OrderedAppend(rows, n, keys, rows[n].folder);
    }
  }

  /** A key first seen at row `n` may follow the keys of the first `n` rows. */
  lemma OrderedAppend(rows: seq<Survey>, n: nat, keys: seq<string>, k: string)
    requires Ordered(rows, n, keys) && FirstSeen(rows, k) == n
    ensures Ordered(rows, n + 1, keys + [k])
  {
    var keys2 := keys + [k];
    forall j | 0 <= j < |keys2| ensures FirstSeen(rows, keys2[j]) < n + 1 {
      if j < |keys| {
        assert keys2[j] == keys[j];
      }
    }
    forall i, j | 0 <= i < j < |keys2|
      ensures FirstSeen(rows, keys2[i]) < FirstSeen(rows, keys2[j])
    {
      assert keys2[i] == keys[i];
      if j < |keys| {
        assert keys2[j] == keys[j];
      }
    }
  }

  /** A folder whose first row is row `n` is first seen there. */
  lemma FirstSeenAt(rows: seq<Survey>, k: string, n: nat)
    requires n < |rows| && rows[n].folder == k
    requires forall m :: 0 <= m < n ==> rows[m].folder != k
    ensures FirstSeen(rows, k) == n
  {
    var f := FirstSeen(rows, k);
    assert f <= n;
    assert !(f < n);
  }

  lemma GroupedStep(rows: seq<Survey>, n: nat, groups: map<string, seq<Entry>>, keys: seq<string>)
    requires n < |rows| && Grouped(rows, n, groups, keys)
    ensures Grouped(rows, n + 1, AddRow(groups, keys, rows[n]).0, AddRow(groups, keys, rows[n]).1)
  {
    StepGroups(rows, n, groups, keys);
    StepKeys(groups, keys, rows[n], n);
    var k := rows[n].folder;
    assert k !in groups ==> forall m :: 0 <= m < n ==> rows[m].folder != k;
    StepOrder(rows, n, keys, k !in groups);
  }

  lemma GroupedStart(rows: seq<Survey>)
    ensures Grouped(rows, 0, map[], [])
  {
  }

  /** Once every row is in, the groups are the whole table's. */
  lemma GroupedEnd(rows: seq<Survey>, groups: map<string, seq<Entry>>, keys: seq<string>)
    requires Grouped(rows, |rows|, groups, keys)
    ensures forall k :: k in groups <==> exists i :: 0 <= i < |rows| && rows[i].folder == k
    ensures forall k :: k in groups ==> groups[k] == Group(rows, k)
    ensures forall j :: 0 <= j < |keys| ==> keys[j] in groups
    ensures forall k :: k in groups ==> k in keys
    ensures Distinct(keys)
    ensures TotalSize(groups, keys) == |rows|
    ensures forall i, j :: 0 <= i < j < |keys| ==> FirstSeen(rows, keys[i]) < FirstSeen(rows, keys[j])
  {
    assert rows[..|rows|] == rows;
  }

  /** `load_survey_data` (chitradrishya.py:370-383): every survey row is
      appended, without its folder, to the list of its folder, created on
      first sight. Each folder that has surveys gets a key, each key's list
      is that folder's rows in table order, the keys are listed once each
      in the order of their folders' first rows, and the lists together hold
      every row exactly once. */
  method LoadSurveyData(rows: seq<Survey>) returns (groups: map<string, seq<Entry>>, keys: seq<string>)
    ensures forall k :: k in groups <==> exists i :: 0 <= i < |rows| && rows[i].folder == k
    ensures forall k :: k in groups ==> groups[k] == Group(rows, k)
    ensures forall j :: 0 <= j < |keys| ==> keys[j] in groups
    ensures forall k :: k in groups ==> k in keys
    ensures Distinct(keys)
    ensures TotalSize(groups, keys) == |rows|
    ensures forall i, j :: 0 <= i < j < |keys| ==> FirstSeen(rows, keys[i]) < FirstSeen(rows, keys[j])
  {
    groups := map[];
    keys := [];
    var i := 0;
    while i < |rows|
      invariant 0 <= i <= |rows|
      invariant (groups, keys) == AddRows(rows, i)
    {
      var next := AddRow(groups, keys, rows[i]);
      groups, keys := next.0, next.1;
      i := i + 1;
    }
    AddRowsEnd(rows);
    assert groups == AddRows(rows, |rows|).0 && keys == AddRows(rows, |rows|).1;
  }

  /** The lists built by the first `n` turns of the loop. */
  function AddRows(rows: seq<Survey>, n: nat): (map<string, seq<Entry>>, seq<string>)
    requires n <= |rows|
  {
    if n == 0 then (map[], [])
    else
      var prev := AddRows(rows, n - 1);
      AddRow(prev.0, prev.1, rows[n - 1])
  }

  /** One more turn keeps the lists those of the rows read so far. */
  lemma AddRowsStep(rows: seq<Survey>, n: nat)
    requires n < |rows| && Grouped(rows, n, AddRows(rows, n).0, AddRows(rows, n).1)
    ensures Grouped(rows, n + 1, AddRows(rows, n + 1).0, AddRows(rows, n + 1).1)
  {
    var prev := AddRows(rows, n);
    GroupedStep(rows, n, prev.0, prev.1);
    assert AddRows(rows, n + 1) == AddRow(prev.0, prev.1, rows[n]);
  }

  /** From the lists of the first `n` rows the remaining turns reach the
      lists of the whole table. */
  lemma {:induction false} AddRowsFrom(rows: seq<Survey>, n: nat)
    requires n <= |rows| && Grouped(rows, n, AddRows(rows, n).0, AddRows(rows, n).1)
    ensures Grouped(rows, |rows|, AddRows(rows, |rows|).0, AddRows(rows, |rows|).1)
    decreases |rows| - n
  {
    if n < |rows| {
      AddRowsStep(rows, n);
      AddRowsFrom(rows, n + 1);
    }
  }

  /** After the last turn the lists are the whole table's. */
  lemma AddRowsEnd(rows: seq<Survey>)
    ensures var groups := AddRows(rows, |rows|).0;
            && (forall k :: k in groups <==> exists i :: 0 <= i < |rows| && rows[i].folder == k)
            && (forall k :: k in groups ==> groups[k] == Group(rows, k))
    ensures var keys := AddRows(rows, |rows|).1;
            && (forall j :: 0 <= j < |keys| ==> keys[j] in AddRows(rows, |rows|).0)
            && (forall k :: k in AddRows(rows, |rows|).0 ==> k in keys)
            && Distinct(keys)
            && TotalSize(AddRows(rows, |rows|).0, keys) == |rows|
            && (forall i, j :: 0 <= i < j < |keys| ==> FirstSeen(rows, keys[i]) < FirstSeen(rows, keys[j]))
  {
    GroupedStart(rows);
    AddRowsFrom(rows, 0);
    GroupedEnd(rows, AddRows(rows, |rows|).0, AddRows(rows, |rows|).1);
  }

  /** A survey just saved shows up last in its folder's list, and no other
      folder's list changes. */
  lemma SavedSurveyListedLast(s: Store, folder: string, rating: int, feedback: string, timestamp: string)
    ensures var r := SaveSurveyData(s, folder, rating, feedback, timestamp);
            && Group(r.surveys, folder) == Group(s.surveys, folder) + [Entry(rating, feedback, timestamp)]
            && forall k :: k != folder ==> Group(r.surveys, k) == Group(s.surveys, k)
  {
    var r := SaveSurveyData(s, folder, rating, feedback, timestamp);
    assert r.surveys[..|r.surveys| - 1] == s.surveys;
  }
}

=== FILE: upload.dfy ===
/** The upload check `validate_file`: a size limit, then a type check on the
    browser-reported MIME type or, when there is none, on the lower-cased
    file-name extension as POSIX `os.path.splitext` computes it. The final
    integrity check (the imaging library's `verify`) is a foreign call and
    arrives here as a boolean parameter. */
module Upload {
  import opened Common

  const MaxFileSizeMb: nat := 5
  /** 5 MiB; a file of exactly this many bytes still passes. */
  const MaxFileSize: nat := MaxFileSizeMb * 1024 * 1024

  /** The accepted values of the file type: MIME types or extensions. */
  const AcceptedTypes: seq<string> := ["image/jpeg", "image/png", ".jpg", ".jpeg", ".png"]

  /** An uploaded file: its name, the MIME type the browser reported (absent
      or empty when unknown) and its bytes. */
  datatype UploadedFile = UploadedFile(name: string, mimeType: Option<string>, content: Blob)

  /** Index of the last `c` in `s`, or -1 (Python's `str.rfind`). */
  function LastIndexOf(s: string, c: char): (r: int)
    ensures -1 <= r < |s|
    ensures r >= 0 ==> s[r] == c
    ensures forall i :: r < i < |s| ==> s[i] != c
  {
    if |s| == 0 then -1
    else if s[|s| - 1] == c then |s| - 1
    else LastIndexOf(s[..|s| - 1], c)
  }

  /** `os.path.splitext(p)[1]` on POSIX: the text from the last dot of the
      last path component, unless that component is only dots before it
      (so ".png" has no extension). */
  function Extension(p: string): (e: string)
    ensures |e| <= |p|
    ensures e == "" || (e[0] == '.' && e == p[|p| - |e|..])
    ensures forall i :: 0 < i < |e| ==> e[i] != '.' && e[i] != '/'
  {
    var sep := LastIndexOf(p, '/');
    var dot := LastIndexOf(p, '.');
    if dot > sep && exists j :: sep < j < dot && p[j] != '.' then p[dot..] else ""
  }

  /** `p[d]` is the dot that begins an extension: the last dot of the last
      path component, with some character other than a dot earlier in that
      component. */
  ghost predicate ExtensionAt(p: string, d: int)
  {
    && 0 <= d < |p| && p[d] == '.'
    && (forall i :: d < i < |p| ==> p[i] != '.' && p[i] != '/')
    && exists j :: 0 <= j < d && p[j] != '.' && p[j] != '/' && forall m :: j < m < d ==> p[m] != '/'
  }

  /** The extension is non-empty exactly when some dot begins one, and then
      it is the rest of the name from that dot. So "a..png" has ".png" and
      "dir.d/.png" has none. */
  lemma ExtensionSpec(p: string)
    ensures Extension(p) != "" <==> exists d :: ExtensionAt(p, d)
    ensures forall d :: ExtensionAt(p, d) ==> Extension(p) == p[d..]
  {
    var sep := LastIndexOf(p, '/');
    var dot := LastIndexOf(p, '.');
    if Extension(p) != "" {
      var j :| sep < j < dot && p[j] != '.';
      assert ExtensionAt(p, dot);
    }
    forall d | ExtensionAt(p, d) ensures Extension(p) == p[d..] {
      assert dot == d;
      var j :| 0 <= j < d && p[j] != '.' && p[j] != '/' && forall m :: j < m < d ==> p[m] != '/';
      assert sep < j < dot && p[j] != '.';
    }
  }

  function LowerChar(c: char): char
  {
    if 'A' <= c <= 'Z' then (c as int + 32) as char else c
  }

  /** `str.lower()` restricted to ASCII letters. */
  function AsciiLower(s: string): (r: string)
    ensures |r| == |s|
    ensures forall i :: 0 <= i < |s| ==> r[i] == LowerChar(s[i])
  {
    seq(|s|, i requires 0 <= i < |s| => LowerChar(s[i]))
  }

  /** The type `validate_file` checks: the MIME type when it is present and
      non-empty, else the lower-cased extension. */
  function FileType(f: UploadedFile): (r: string)
    ensures f.mimeType.Some? && f.mimeType.value != "" ==> r == f.mimeType.value
    ensures f.mimeType.None? || f.mimeType.value == "" ==>
              |r| == |Extension(f.name)| && (r == "" || r[0] == '.')
    ensures f.mimeType.None? || f.mimeType.value == "" ==>
              forall i :: 0 <= i < |r| ==> r[i] == LowerChar(Extension(f.name)[i])
  {
    if f.mimeType.Some? && f.mimeType.value != "" then f.mimeType.value
    else AsciiLower(Extension(f.name))
  }

  /** `validate_file` (chitradrishya.py:54-74); `intact` is the outcome of
      the imaging library's integrity check. */
  function ValidateFile(f: UploadedFile, intact: bool): (ok: bool)
    ensures |f.content| > MaxFileSize ==> !ok
    ensures ok <==> |f.content| <= MaxFileSize && FileType(f) in AcceptedTypes && intact
  {
    if |f.content| > MaxFileSize then false
    else if FileType(f) !in AcceptedTypes then false
    else intact
  }

  /** A name ending in a dot and an extension word, with a real stem
      before it, has that extension. */
  lemma {:induction false} ExtensionOfName(stem: string, word: string)
    requires |stem| > 0 && stem[|stem| - 1] != '.' && stem[|stem| - 1] != '/'
    requires forall i :: 0 <= i < |word| ==> word[i] != '.' && word[i] != '/'
    ensures Extension(stem + "." + word) == "." + word
  {
    var p := stem + "." + word;
    var sep := LastIndexOf(p, '/');
    var dot := LastIndexOf(p, '.');
    assert p[|stem|] == '.';
    assert forall i :: |stem| < i < |p| ==> p[i] == word[i - |stem| - 1];
    assert dot == |stem|;
    assert sep < |stem| - 1 by {
      assert p[|stem| - 1] == stem[|stem| - 1];
    }
    assert p[|stem| - 1] != '.';
    assert p[dot..] == "." + word;
  }

  lemma LowerConcat(a: string, b: string)
    ensures AsciiLower(a + b) == AsciiLower(a) + AsciiLower(b)
  {
  }

  /** Without a reported MIME type the check goes by extension, in any
      letter case: "photo.PNG" or "scan.Jpeg" pass when small and intact. */
  lemma ExtensionDecidesWithoutMime(f: UploadedFile, stem: string, word: string, intact: bool)
    requires f.mimeType == None || f.mimeType == Some("")
    requires |stem| > 0 && stem[|stem| - 1] != '.' && stem[|stem| - 1] != '/'
    requires forall i :: 0 <= i < |word| ==> word[i] != '.' && word[i] != '/'
    requires f.name == stem + "." + word
    requires AsciiLower(word) in ["jpg", "jpeg", "png"]
    ensures ValidateFile(f, intact) <==> |f.content| <= MaxFileSize && intact
  {
    ExtensionOfName(stem, word);
    LowerConcat(".", word);
    assert AsciiLower(".") == ".";
    var w := AsciiLower(word);
    assert FileType(f) == "." + w;
    DottedAccepted(w);
  }

  lemma DottedAccepted(w: string)
    requires w in ["jpg", "jpeg", "png"]
    ensures "." + w in AcceptedTypes
  {
    if w == "jpg" {
      assert "." + w == AcceptedTypes[2];
    } else if w == "jpeg" {
      assert "." + w == AcceptedTypes[3];
    } else {
      assert "." + w == AcceptedTypes[4];
    }
  }

  /** A reported MIME type decides on its own: renaming the file changes
      nothing, so "photo.gif" sent as "image/png" passes and "photo.png"
      sent as "image/gif" does not. */
  lemma MimeOverridesName(f: UploadedFile, other: string, intact: bool)
    requires f.mimeType.Some? && f.mimeType.value != ""
    ensures ValidateFile(f.(name := other), intact) == ValidateFile(f, intact)
    ensures ValidateFile(f, intact) <==> |f.content| <= MaxFileSize && f.mimeType.value in AcceptedTypes && intact
  {
  }

  /** A hidden file such as ".png" has no extension for `splitext`, so
      without a MIME type it is refused whatever its content. */
  lemma HiddenFileRejected(f: UploadedFile, word: string, intact: bool)
    requires f.mimeType == None
    requires forall i :: 0 <= i < |word| ==> word[i] != '.' && word[i] != '/'
    requires f.name == "." + word
    ensures !ValidateFile(f, intact)
  {
    var p := f.name;
    assert LastIndexOf(p, '.') == 0 by {
      assert p[0] == '.';
      assert forall i :: 0 < i < |p| ==> p[i] == word[i - 1];
    }
    assert Extension(p) == "";
    assert AsciiLower("") == "";
    assert "" !in AcceptedTypes;
  }
}

=== FILE: zoom.dfy ===
/** The zoom view's navigation (chitradrishya.py:1061-1081, 1161-1175 and
    1196-1198): which folder is open and the index of the photo
    shown, over that folder's list of `n` images as `get_images` returns
    it. The stored index is repaired when it has run past the end; with no
    images at all the lookup fails. */
module ZoomView {
  import opened Common
  import opened Database

  /** `zoom_folder` (None when the gallery is shown) and `zoom_index`. */
  datatype Zoom = Zoom(folder: Option<string>, index: nat)

  const Closed: Zoom := Zoom(None, 0)

  /** The buttons that move the view. `Delete` carries how many images the
      folder still holds after the deletion, as `get_images` reports it. */
  datatype Event = View(folder: string, index: nat) | Previous | Next | Delete(remaining: nat) | BackToGallery

  /** The index shown for `n` images: the stored one, or the first when the
      stored one has run past the end; `None` stands for the IndexError of
      an empty list. */
  function ShownIndex(index: nat, n: nat): (r: Option<nat>)
    ensures r.None? <==> n == 0
    ensures r.Some? ==> r.value < n
    ensures index < n ==> r == Some(index)
    ensures n <= index && 0 < n ==> r == Some(0)
  {
    if n == 0 then None
    else if index >= n then Some(0)
    else Some(index)
  }

  /** The move a zoom-view button makes from the shown index `k` of `n`:
      "Previous" and "Next" step by one within the list, "Delete" steps
      back onto the list that is left (or closes it when nothing is left),
      "View" opens the chosen photo and "Back to Gallery" closes. */
  function Move(z: Zoom, n: nat, k: nat, e: Event): (r: Zoom)
    ensures e.View? ==> r == Zoom(Some(e.folder), e.index)
    ensures e.BackToGallery? ==> r == Closed
    ensures e.Previous? ==> r.folder == z.folder && r.index <= k && (0 < k ==> r.index + 1 == k)
    ensures e.Next? ==> r.folder == z.folder && k <= r.index <= k + 1 && (k < n ==> r.index < n)
                        && (k + 1 < n <==> r.index == k + 1)
    ensures e.Delete? && e.remaining == 0 ==> r == Closed
    ensures e.Delete? && 0 < e.remaining ==> r.folder == z.folder && (k <= e.remaining ==> r.index < e.remaining)
    ensures e.Delete? && 0 < e.remaining ==> r == z.(index := if k == 0 then 0 else k - 1)
  {
    match e
    case View(f, i) => Zoom(Some(f), i)
    case Previous => z.(index := if k > 0 then k - 1 else k)
    case Next => z.(index := if k + 1 < n then k + 1 else k)
    case Delete(remaining) =>
      if remaining == 0 then Closed
      else z.(index := if k > 0 then k - 1 else 0)
    case BackToGallery => Closed
  }

  /** What one button press does. Outside a zoom only "View" exists. In a
      zoom the lookup of the shown photo comes first on every run of the
      page, and every button, the gallery's "View" buttons included, is
      drawn after it; so when that lookup fails (`None`) no button is
      reachable. The index written back is always the repaired one. */
  function Step(z: Zoom, n: nat, e: Event): (r: Option<Zoom>)
    ensures r.None? <==> z.folder.Some? && n == 0
    ensures z.folder.None? ==> r == Some(if e.View? then Zoom(Some(e.folder), e.index) else z)
    ensures r.Some? && z.folder.Some? && (e.Previous? || e.Next?) ==> r.value.folder == z.folder && r.value.index < n
  {
    if z.folder.Some? && n == 0 then None
    else if e.View? then Some(Zoom(Some(e.folder), e.index))
    else if z.folder.None? then Some(z)
    else Some(Move(z, n, ShownIndex(z.index, n).value, e))
  }

  /** A settled view: closed with index 0, or open on an index of the list. */
  predicate Settled(z: Zoom, n: nat)
  {
    (z.folder.None? ==> z.index == 0) && (z.folder.Some? ==> z.index < n)
  }

  /** A settled index is shown as stored; nothing needs repairing. */
  lemma SettledShownAsStored(z: Zoom, n: nat)
    requires Settled(z, n) && z.folder.Some?
    ensures ShownIndex(z.index, n) == Some(z.index)
  {
  }

  /** An open view over a non-empty list always shows some photo, and the
      previous/next buttons keep the view settled over the same list. */
  lemma NavigationStaysInRange(z: Zoom, n: nat, e: Event)
    requires z.folder.Some? && 0 < n
    requires e == Previous || e == Next
    ensures Step(z, n, e).Some?
    ensures Settled(Step(z, n, e).value, n)
    ensures Step(z, n, e).value.folder == z.folder
  {
  }

  /** "Previous" at the first photo and "Next" at the last are not drawn,
      so the index stays put. */
  lemma GuardsAtTheEnds(z: Zoom, n: nat)
    requires z.folder.Some? && Settled(z, n)
    ensures z.index == 0 ==> Step(z, n, Previous) == Some(z)
    ensures z.index == n - 1 ==> Step(z, n, Next) == Some(z)
  {
  }

  /** Away from the ends, "Previous" and "Next" undo each other. */
  lemma PreviousNextInverse(z: Zoom, n: nat)
    requires z.folder.Some? && Settled(z, n)
    ensures 0 < z.index ==> Step(Step(z, n, Previous).value, n, Next) == Some(z)
    ensures z.index < n - 1 ==> Step(Step(z, n, Next).value, n, Previous) == Some(z)
  {
  }

  /** After deleting the shown photo from a list of `n`, when exactly one
      row went: the view closes if the folder is empty, and otherwise shows
      the photo before the deleted one (or the first) on the shorter list. */
  lemma DeleteStaysInRange(z: Zoom, n: nat)
    requires z.folder.Some? && 0 < n
    ensures var r := Step(z, n, Delete(n - 1));
            && r.Some?
            && Settled(r.value, n - 1)
            && (n == 1 <==> r.value == Closed)
            && (1 < n ==> r.value.folder == z.folder)
            && (1 < n ==> r.value.index == (var k := ShownIndex(z.index, n).value; if k == 0 then 0 else k - 1))
  {
  }

  /** "Back to Gallery" closes the view, whatever its state. */
  lemma BackCloses(z: Zoom, n: nat)
    requires z.folder.Some? && 0 < n
    ensures Step(z, n, BackToGallery) == Some(Closed)
    ensures Settled(Closed, 0)
  {
  }

  /** Deleting a photo the view shows removes exactly one image of its
      folder, because (folder, name) pairs are unique in a valid store. */
  lemma DeleteShownRemovesOne(s: Store, folder: string, k: nat)
    requires Pairwise(DistinctRows, s.images) && k < |GetImages(s, folder)|
    ensures |GetImages(DeleteImage(s, folder, GetImages(s, folder)[k].name), folder)| + 1 == |GetImages(s, folder)|
  {
    var name := GetImages(s, folder)[k].name;
    assert GetImages(s, folder)[k] in s.images;
    var i :| 0 <= i < |s.images| && s.images[i] == GetImages(s, folder)[k];
    var keep := (img: Image) => !Named(img, folder, name);
    var inFolder := (img: Image) => img.folder == folder;
    forall j | 0 <= j < |s.images| && j != i ensures keep(s.images[j]) {
      if j < i {
        assert DistinctRows(s.images[j], s.images[i]);
      } else {
        assert DistinctRows(s.images[i], s.images[j]);
      }
    }
    FilterDropsOne(keep, inFolder, s.images, i);
  }

  /** Deleting the shown photo `k` of folder `f`, in a store whose
      (folder, name) pairs are unique, and reading the folder again, leaves
      the view settled on the new list. */
  lemma DeleteShownSettles(s: Store, f: string, k: nat)
    requires Pairwise(DistinctRows, s.images) && k < |GetImages(s, f)|
    ensures var n := |GetImages(s, f)|;
            var left := |GetImages(DeleteImage(s, f, GetImages(s, f)[k].name), f)|;
            && left + 1 == n
            && Settled(Step(Zoom(Some(f), k), n, Delete(left)).value, left)
  {
    DeleteShownRemovesOne(s, f, k);
    DeleteStaysInRange(Zoom(Some(f), k), |GetImages(s, f)|);
  }
}
